=== FILE: README.md ===
# PIX checkout and club administration — a Dafny model

This project models the core of a small club storefront. A visitor buys access
through a PIX payment dialog. A server function turns that purchase into a
charge at the payment gateway. An administrator keeps the club profiles and
their media gallery. Three parts are modelled:

- **The purchase dialog** (`src/components/PaymentModal.tsx`).
  - `Masks` models the CPF and phone input masks as chains of non-global
    regular-expression rewrites. It proves each chain equal to a slot-filling
    reference (`Fill`).
  - `PaymentSession` models:
    - the dialog state;
    - submit validation;
    - the asynchronous submit, split at its `await`;
    - copying the PIX code;
    - closing;
    - the event loop, where the rendered dialog decides which events can
      happen.
- **The charge function** (`supabase/functions/create-pix-payment/index.ts`).
  `PixAdapter.Serve` handles one HTTP request. The outcomes of the two
  gateway requests are given to it as parameters. It returns the response and
  the list of gateway requests it issued.
- **The admin page's bookkeeping** (`src/pages/Admin.tsx`). `AdminProfiles`
  covers:
  - the slug input filter and the save-time slug check;
  - loading, creating, saving and deleting profiles;
  - upload path naming;
  - appending to and deleting from the gallery.

`Common` holds `Option`. `Text` holds the digit helpers
(`replace(/\D/g, '')`) and the decimal rendering of a timestamp.

Conventions used throughout:

- Money is in integer cents. R$ 1,00 is 100 and R$ 29,90 is 2990.
- The clock is a parameter `now`, in milliseconds since the epoch.
- Database, storage, clipboard and gateway calls are never performed. Each
  handler takes the call's outcome as a parameter and reports the requests
  and toasts it produced.

## Model

| member | source | states |
|---|---|---|
| `Text.Digits` | src/components/PaymentModal.tsx:35 | Stripping non-digits leaves only digits and never lengthens the text. |
| `Text.DigitsAppend` | src/components/PaymentModal.tsx:59 | Stripping distributes over concatenation. This is what lets the CPF check count the digits of a formatted CPF piece by piece. |
| `Text.DigitsOfDigits` | src/components/PaymentModal.tsx:44 | A digit-only string is left unchanged by the stripping. |
| `Text.NatToString` | src/pages/Admin.tsx:107 | Rendering a timestamp yields a non-empty string of digits with no leading zero. |
| `Text.NatToStringRoundTrip` | src/pages/Admin.tsx:162 | Reading a rendered timestamp back gives the same number, so the rendering loses nothing. |
| `Masks.FindRun` | src/components/PaymentModal.tsx:37-39 | A non-global `(\d{k})(\d)` search finds the leftmost run of k+1 digits. No earlier index matches, and "none" means no index matches at all. |
| `Masks.FindDashTail` | src/components/PaymentModal.tsx:40 | The `(-\d{2})\d+?$` search finds the leftmost dash followed only by digits, more of them than are kept. "None" means no such dash exists. |
| `Masks.RewriteKeepsDigits` | src/components/PaymentModal.tsx:37-39 | One `(\d{k})(\d)` rewrite inserts only digit-free text, so the digits of the field are unchanged. |
| `Masks.InsertKeepsDigits` | src/components/PaymentModal.tsx:37-39 | Splicing digit-free text between three pieces leaves the digits of the pieces, in order. |
| `Masks.TrimDashTail` | src/components/PaymentModal.tsx:40 | The final `(-\d{2})\d+?$` rewrite only cuts the text short, and only digits are cut off. |
| `Masks.DigitsOfPrefix` | src/components/PaymentModal.tsx:34-49 | The digits of a prefix are a prefix of the digits. |
| `Masks.FormatCpf` | src/components/PaymentModal.tsx:34-41 | The digits of the formatted CPF are a prefix of the digits typed: nothing is invented or reordered. |
| `Masks.FormatPhone` | src/components/PaymentModal.tsx:43-49 | The digits of the formatted phone are a prefix of the digits typed: nothing is invented or reordered. |
| `Masks.FillShape` | src/components/PaymentModal.tsx:34-49 | Pouring digits into a mask yields a prefix of the mask, digits in the slots, that ends in a digit. A separator is written only when a digit follows it. |
| `Masks.FillDigits` | src/components/PaymentModal.tsx:34-49 | The digits of a poured mask are the input digits, in order, cut at the number of slots. |
| `Masks.FillIgnoresOverflow` | src/components/PaymentModal.tsx:40 | Digits beyond the mask's slots change nothing. |
| `Masks.FillComplete` | src/components/PaymentModal.tsx:34-49 | With at least as many digits as slots, the whole mask is written. |
| `Masks.TrimAfterDash` | src/components/PaymentModal.tsx:40 | After the dash, the final trim keeps only the first `keep` digits. |
| `Masks.CpfMaskFacts` | src/components/PaymentModal.tsx:156-159 | `###.###.###-##` has 11 slots and 14 characters, which matches the field's `maxLength`. |
| `Masks.CpfChainFull` | src/components/PaymentModal.tsx:34-41 | With 10 or more digits, the four CPF rewrites give `ddd.ddd.ddd-` followed by at most two more digits. |
| `Masks.CpfRewrites` | src/components/PaymentModal.tsx:37-39 | With 10 or more digits, the three digit-run rewrites give `ddd.ddd.ddd-` followed by all remaining digits, before the final trim. |
| `Masks.FormatCpfIsMask` | src/components/PaymentModal.tsx:34-41 | `formatCPF` equals the CPF mask poured with the input's digits, for every input. |
| `Masks.FormatCpfShape` | src/components/PaymentModal.tsx:34-41 | `formatCPF` keeps exactly the first min(n, 11) digits, in order. Its result fits the mask, ends in a digit and has at most 14 characters. It has 14 characters exactly when 11 or more digits were typed. |
| `Masks.FullMaskHasAllDigits` | src/components/PaymentModal.tsx:59 | A 14-character text that fits the CPF mask holds exactly 11 digits. |
| `Masks.FormatCpfIdempotent` | src/components/PaymentModal.tsx:158 | Re-formatting the displayed CPF leaves it unchanged. |
| `Masks.PhoneMaskFacts` | src/components/PaymentModal.tsx:168-171 | `(##) #####-####` has 11 slots and 15 characters, which matches the field's `maxLength`. |
| `Masks.PhoneFillFull` | src/components/PaymentModal.tsx:43-49 | With 8 or more digits, the phone reference is `(dd) ddddd-` followed by at most four digits. |
| `Masks.FormatPhoneIsMask` | src/components/PaymentModal.tsx:43-49 | `formatPhone` equals the phone reference for every input. One or two digits stay bare; otherwise the phone mask is poured. |
| `Masks.FormatPhoneShape` | src/components/PaymentModal.tsx:43-49 | `formatPhone` keeps the first min(n, 11) digits, leaves one or two digits bare and stays within 15 characters. Ten digits give `(dd) ddddd-ddd`, with no landline grouping. |
| `Masks.PhoneReferenceShape` | src/components/PaymentModal.tsx:43-49 | The phone reference keeps the first min(n, 11) digits. It leaves one or two digits bare and otherwise fits the mask and ends in a digit. It never exceeds 15 characters, and ten digits give `(dd) ddddd-ddd`. |
| `Masks.FormatPhoneIdempotent` | src/components/PaymentModal.tsx:170 | Re-formatting the displayed phone leaves it unchanged. |
| `PaymentSession.ValidateAccepts` | src/components/PaymentModal.tsx:54-62 | A form passes exactly when name, e-mail and phone are non-empty and the CPF holds exactly 11 digits. The missing-fields rejection is given exactly when one of the four fields is empty. |
| `PaymentSession.Validate` | src/components/PaymentModal.tsx:54-62 | No rejection means all four fields are filled and the CPF holds 11 digits. The CPF rejection is given only when all four are filled and the digit count is wrong. |
| `PaymentSession.MaskedCpfCheck` | src/components/PaymentModal.tsx:59-62 | On a CPF field filled through its mask, the check passes exactly when at least 11 digits were typed. |
| `PaymentSession.PhoneAndEmailUnchecked` | src/components/PaymentModal.tsx:54-62 | Any non-empty phone or e-mail text gives the same verdict. Their content is never checked. |
| `PaymentSession.BeginSubmit` | src/components/PaymentModal.tsx:51-76 | A rejected form only raises its toast. An accepted form sets `loading` and issues one invocation with the price and the fields exactly as displayed. |
| `PaymentSession.FailureMessage` | src/components/PaymentModal.tsx:89 | The failure toast is never empty. It shows the error's own message when there is one. |
| `PaymentSession.FinishSubmit` | src/components/PaymentModal.tsx:77-92 | A settled call always clears `loading`, keeps the form and `copied`, and raises exactly one toast: success or error. |
| `PaymentSession.FinishSubmitOutcomes` | src/components/PaymentModal.tsx:77-92 | Success happens exactly when the reply has `success`, and then the payment step shows the reply's code, image and id. Any failure leaves step and data alone and shows an error toast. `loading` is always cleared, and the form and `copied` are untouched. |
| `PaymentSession.CopyPixCode` | src/components/PaymentModal.tsx:95-102 | Without a code nothing happens. With one, the first effect writes exactly that code to the clipboard. A successful write sets `copied`, raises the copied toast and starts the 3-second revert timer. A failed write changes no state and has no other effect. No other state changes. |
| `PaymentSession.CopiedTimerFired` | src/components/PaymentModal.tsx:100 | The timer clears `copied` and changes nothing else. |
| `PaymentSession.HandleClose` | src/components/PaymentModal.tsx:104-109 | Closing returns to the form step with no payment data and empty fields, and notifies the parent. `loading` and `copied` are kept as they were. |
| `PaymentSession.CloseRestoresInitial` | src/components/PaymentModal.tsx:18-32 | Closing gives back the freshly opened dialog exactly when nothing is loading and `copied` has reverted. |
| `PaymentSession.MaskedFormIsFixpoint` | src/components/PaymentModal.tsx:158-170 | A field is masked exactly when its formatter leaves it unchanged. |
| `PaymentSession.Dispatch` | src/components/PaymentModal.tsx:176-178 | A press on the disabled or unrendered submit button does nothing. |
| `PaymentSession.InitialHealthy` | src/components/PaymentModal.tsx:18-32 | The initial dialog has no call in flight and masked fields. |
| `PaymentSession.DispatchKeepsHealthy` | src/components/PaymentModal.tsx:112-262 | Every event keeps the invariant. One invocation is in flight exactly while `loading`, and the CPF and phone fields stay masked. |
| `PaymentSession.SubmitKeepsHealthy` | src/components/PaymentModal.tsx:51-76 | A press on submit either changes nothing or sets `loading` together with its one invocation; the fields stay masked. |
| `PaymentSession.SettleKeepsHealthy` | src/components/PaymentModal.tsx:77-92 | A settled invocation clears `loading` together with the in-flight count; the fields stay masked. |
| `PaymentSession.DispatchAccounting` | src/components/PaymentModal.tsx:64-92 | Each event adds one in-flight call per invocation it issues and removes one when a call settles. |
| `PaymentSession.RunKeepsHealthy` | src/components/PaymentModal.tsx:112-262 | Over any run of events the invariant holds, so at most one invocation is in flight. Every invocation issued is either settled or still pending. |
| `PaymentSession.HandleSubmitHasNoGuard` | src/components/PaymentModal.tsx:51-64 | The submit handler itself does not check `loading`. Called while loading, it invokes again; only the disabled button prevents that. |
| `PaymentSession.LateSuccessAfterClose` | src/components/PaymentModal.tsx:85-109 | A success that arrives after closing still switches the dialog to the payment step, with empty fields. |
| `PixAdapter.ExpiryDay` | supabase/functions/create-pix-payment/index.ts:73 | The expiry is the UTC day that contains `now` plus two days. |
| `PixAdapter.BearerHeader` | supabase/functions/create-pix-payment/index.ts:67 | The authorization header is `Bearer ` followed by the token. A null token is interpolated as `null`. |
| `PixAdapter.ReplaceError` | supabase/functions/create-pix-payment/index.ts:85-88 | Calling `replace` on a field throws exactly when the field is null or absent. |
| `PixAdapter.Serve` | supabase/functions/create-pix-payment/index.ts:16-148 | Every request issues at most two gateway calls and answers 200 or 400. Every answer except the preflight carries a JSON body and the JSON headers. |
| `PixAdapter.PreflightMakesNoCalls` | supabase/functions/create-pix-payment/index.ts:18-20 | OPTIONS gets the CORS headers, a null body and no gateway traffic. |
| `PixAdapter.ConfigurationCheckedFirst` | supabase/functions/create-pix-payment/index.ts:23-31 | Missing or empty credentials fail with their message before the body is read, whatever the body is, and with no calls. |
| `PixAdapter.AuthCalledIff` | supabase/functions/create-pix-payment/index.ts:31-50 | The gateway is contacted, token request first, exactly when the request is not a preflight, the function is configured, the body parses and the amount is not below R$ 1,00. |
| `PixAdapter.MinimumAmountRefused` | supabase/functions/create-pix-payment/index.ts:34-36 | An amount below R$ 1,00 gets its own message and no calls. |
| `PixAdapter.NullAmountRefused` | supabase/functions/create-pix-payment/index.ts:34-36 | A null amount compares as 0 and is refused as below the minimum, with no calls. |
| `PixAdapter.ChargeOnlyAfterAuth` | supabase/functions/create-pix-payment/index.ts:41-109 | The charge is requested, after the token request, exactly when the token request succeeded and CPF and phone were supplied. |
| `PixAdapter.BuildChargeShape` | supabase/functions/create-pix-payment/index.ts:70-108 | The charge body has one item of quantity 1 priced at the amount, and the amount itself. CPF and phone are reduced to digits; name and e-mail are sent as given, the e-mail also in the metadata. It adds a clock-based reference (`externaRef`, spelt as sent) and an expiry two days ahead. |
| `PixAdapter.BuildCharge` | supabase/functions/create-pix-payment/index.ts:70-108 | CPF and phone are sent as digits only and never longer than given. There is one item, priced at the amount, which is also the body's amount. The expiry is the day containing the instant two days ahead. |
| `PixAdapter.ChargeBodyShape` | supabase/functions/create-pix-payment/index.ts:64-109 | The charge request carries `Bearer` plus the token from the auth answer, and the body built from this request. |
| `PixAdapter.ExternalRefDistinct` | supabase/functions/create-pix-payment/index.ts:89 | References made at different instants differ. |
| `PixAdapter.GatewayRefusalsAreOpaque` | supabase/functions/create-pix-payment/index.ts:52-56 | A refused token or charge is reported with a fixed message. The answer does not depend on the status the gateway gave. The refusal's body is not represented, so its absence from the answer holds by construction. |
| `PixAdapter.SuccessIff` | supabase/functions/create-pix-payment/index.ts:111-146 | The answer is 200 exactly when the charge request was made and came back ok, and it then copies code, image, transaction id and status. Otherwise it is a 400 with `error`. |
| `PixAdapter.CpfNotRevalidated` | supabase/functions/create-pix-payment/index.ts:84-88 | With a usable token, the charge is requested whatever the CPF and phone hold, even no digits. |
| `PixAdapter.MissingFieldThrows` | supabase/functions/create-pix-payment/index.ts:84-88 | With a usable token but a null or absent CPF or phone, the charge is never requested. The answer is a 400 carrying the `TypeError` of the first such field, CPF first, with the null or undefined wording to match. |
| `PixAdapter.MissingAmountPasses` | supabase/functions/create-pix-payment/index.ts:34-36 | A body without the `amount` key is not refused (`undefined < 1` is false). The charge is requested with no amount. |
| `AdminProfiles.SanitizeSlug` | src/pages/Admin.tsx:448 | The filtered slug holds only `[a-z0-9-]` and is never longer than the input. |
| `AdminProfiles.SanitizeSlugAppend` | src/pages/Admin.tsx:448 | The filter works character by character, so it distributes over concatenation. |
| `AdminProfiles.SanitizeSlugFixpoint` | src/pages/Admin.tsx:448 | The filter leaves a slug unchanged exactly when all its characters are allowed. |
| `AdminProfiles.SanitizeSlugIdempotent` | src/pages/Admin.tsx:448 | Filtering twice is filtering once. |
| `AdminProfiles.SanitizeSlugKeeps` | src/pages/Admin.tsx:448 | A character is in the result exactly when it is allowed and some input character lower-cases to it. |
| `AdminProfiles.TypedSlugPassesCheck` | src/pages/Admin.tsx:272-276 | What the filter yields is empty or matches `^[a-z0-9-]+$`. |
| `AdminProfiles.TypedSlugNeverBlocksSave` | src/pages/Admin.tsx:268-292 | A slug typed through the input never stops a save from being sent. |
| `AdminProfiles.Normalize` | src/pages/Admin.tsx:84-88 | An empty or missing button colour becomes `#f97316`, and an empty or missing link becomes null. Present values and every other field are kept. |
| `AdminProfiles.NormalizeAll` | src/pages/Admin.tsx:84-88 | The loaded list keeps its length and order, each row with its defaults applied. |
| `AdminProfiles.NormalizeFixpoint` | src/pages/Admin.tsx:125-129 | Applying the defaults changes a row exactly when it lacks them. |
| `AdminProfiles.LoadProfiles` | src/pages/Admin.tsx:77-91 | One profile query is issued and no toast is raised. A returned list replaces the profiles in order, each with its defaults. No list keeps the old one. Loading ends either way. |
| `AdminProfiles.NewProfileSlugValid` | src/pages/Admin.tsx:107 | The generated `modelo-<timestamp>` slug passes the save check and the input filter unchanged. |
| `AdminProfiles.CreateProfile` | src/pages/Admin.tsx:106-135 | One insert is sent with the fixed name, bio, price and slug. A failure changes nothing. A returned row, with defaults, is put at the head of the list, selected and opened for editing; nothing else in the state changes. |
| `AdminProfiles.ReplaceById` | src/pages/Admin.tsx:303 | Every entry with the saved id becomes the saved profile. All other entries and the order stay. |
| `AdminProfiles.SaveProfile` | src/pages/Admin.tsx:268-306 | Only the list can change. Without a selection nothing is sent and no toast is raised. A malformed slug sends nothing and raises the slug rule. Once sent, success raises "Perfil salvo!", error 23505 the slug-in-use message, and any other error "Erro ao salvar". |
| `AdminProfiles.UpdateFields` | src/pages/Admin.tsx:281-291 | The update carries the profile's slug and price as they are. |
| `AdminProfiles.UpdateOmitsIdAndImages` | src/pages/Admin.tsx:281-291 | Two profiles send the same update exactly when they differ at most in id, banner and avatar: every other field is sent. |
| `AdminProfiles.SaveSendsIff` | src/pages/Admin.tsx:269-292 | The update is sent exactly when a profile is open and its slug is absent, empty or well formed, and it is then the one update of that profile's editable fields by id. A malformed slug is refused with the rule. |
| `AdminProfiles.SaveReplacesInPlace` | src/pages/Admin.tsx:294-304 | A successful save replaces the entries with the open profile's id in place. A failed save changes nothing, and error 23505 is reported as a slug in use. |
| `AdminProfiles.Without` | src/pages/Admin.tsx:156 | An entry remains exactly when it was listed and has another id, and the result is never longer. |
| `AdminProfiles.WithoutAppend` | src/pages/Admin.tsx:156 | The filter works entry by entry, so it distributes over concatenation. |
| `AdminProfiles.WithoutKeepsOthers` | src/pages/Admin.tsx:156 | A list with no entry of that id comes back unchanged, order and repeats included. |
| `AdminProfiles.WithoutDropsMatches` | src/pages/Admin.tsx:156 | A list whose entries all have that id comes back empty. |
| `AdminProfiles.DropOne` | src/pages/Admin.tsx:156 | Removing the one entry with the id keeps the rest in their order. |
| `AdminProfiles.DeleteProfile` | src/pages/Admin.tsx:143-158 | Declining the confirmation sends nothing and raises no toast. A failed delete changes nothing and raises "Erro ao excluir perfil". A successful one leaves the list filtered by id and raises "Perfil excluído!". Only the list can change. |
| `AdminProfiles.DeleteRemovesOnlyThatId` | src/pages/Admin.tsx:143-158 | After a successful delete, exactly the listed profiles with other ids remain. |
| `AdminProfiles.DeleteKeepsOthersInOrder` | src/pages/Admin.tsx:143-158 | Deleting the one profile with an id leaves the profiles before and after it, in their order. |
| `AdminProfiles.FileExtension` | src/pages/Admin.tsx:161 | The extension is the longest dot-free suffix of the name. It is preceded by a dot when shorter than the name. |
| `AdminProfiles.UploadPath` | src/pages/Admin.tsx:162 | The path starts with the folder and a slash and ends with a dot and the file's extension. |
| `AdminProfiles.UploadPathTimestamp` | src/pages/Admin.tsx:162 | A storage path within a folder determines the timestamp it was made at. |
| `AdminProfiles.UploadPathsDistinct` | src/pages/Admin.tsx:160-166 | Uploads to one folder at different instants never share a path. |
| `AdminProfiles.BatchPathsDistinct` | src/pages/Admin.tsx:160-166 | Two uploads of one gallery batch made at different instants go to different paths. |
| `AdminProfiles.UploadLoop` | src/pages/Admin.tsx:229-245 | The loop appends the rows returned so far, in order, up to the first failure. It reports failure exactly when some file's upload or insert failed. |
| `AdminProfiles.LoopRequests` | src/pages/Admin.tsx:229-241 | Every insert of a batch carries the captured order and the batch's kind. Every upload goes to the kind's folder under one of the batch's file names. |
| `AdminProfiles.LoopStep` | src/pages/Admin.tsx:229-243 | One turn of the loop: the file's upload; then, when it gave a URL, the insert of that URL; then the rest of the batch only when both succeeded. |
| `AdminProfiles.UploadAt` | src/pages/Admin.tsx:230 | File k's upload is request 2k, whenever the loop gets that far. |
| `AdminProfiles.LoopUploadPositions` | src/pages/Admin.tsx:229-230 | Every file the loop reaches is uploaded at position 2k, into the kind's folder, under its own name and clock. |
| `AdminProfiles.InsertAt` | src/pages/Admin.tsx:230-241 | Request 2k+1, when issued, is the insert of file k's URL, and file k's upload gave that URL. |
| `AdminProfiles.LoopInsertPositions` | src/pages/Admin.tsx:230-241 | An insert follows only an upload that gave a URL, and it carries that URL, the kind and the captured order. |
| `AdminProfiles.LoopRequestCount` | src/pages/Admin.tsx:229-245 | A batch issues at most two requests per file, and exactly two per file when it went through. |
| `AdminProfiles.ReachedOnlyAfterSuccess` | src/pages/Admin.tsx:243 | A file is followed by further requests only when its upload and its insert both succeeded. |
| `AdminProfiles.LoopStopsAtFailure` | src/pages/Admin.tsx:243 | For every file: nothing is issued after it unless it fully succeeded, because `throw` leaves the loop. |
| `AdminProfiles.LoopEndsAtFailure` | src/pages/Admin.tsx:243-248 | A failed batch issued at least one request, and its last requests belong to a failing file. |
| `AdminProfiles.GalleryUpload` | src/pages/Admin.tsx:223-251 | The gallery grows by exactly the returned rows of the successful prefix of the batch. The toast reports whether the whole batch went through. |
| `AdminProfiles.BatchSharesDisplayOrder` | src/pages/Admin.tsx:238 | All inserts of one batch use the gallery's length before the batch as `display_order`. |
| `AdminProfiles.GalleryOnlyGrows` | src/pages/Admin.tsx:244 | Existing items stay in place, and at most one item per file is added. |
| `AdminProfiles.DeleteGalleryItem` | src/pages/Admin.tsx:253-266 | A failed delete changes nothing. A successful one keeps exactly the items with other ids, filtered in order. |
| `AdminProfiles.DeleteGalleryKeepsOthersInOrder` | src/pages/Admin.tsx:253-266 | Deleting the one item with an id leaves the items before and after it, in their order. |

## Left out

- Network, database, storage, clipboard and timers are not performed. Their outcomes are parameters, and their requests are recorded as values. Console logging is dropped.
- Money is modelled as integer cents, while the source uses JavaScript numbers in reais. Floating-point rounding of prices is not modelled, and neither is the price display (`toFixed(2)`).
- The body parser is modelled in part. Each property is absent, `null` or given, and the three are kept apart where the code treats them differently. A property of the wrong JSON type (for example `amount` as a string) is not modelled.
- `PixAdapter.ExpiryDay`: yields the day number since the epoch. The calendar rendering of that day as `YYYY-MM-DD` is not modelled.
- `PixAdapter.Serve`: a null or absent CPF or phone throws a `TypeError` when the charge body is built. The two messages used for it are the V8 runtime's wording, which the source does not fix.
- `PixAdapter.BuildCharge`: one clock reading `now` stands for both `Date.now()` calls (index.ts:73 and 89). The two readings can differ by a few milliseconds in the source.
- `AdminProfiles.SanitizeSlug`: lower-cases ASCII letters only. JavaScript's `toLowerCase` also maps a few non-ASCII characters to ASCII letters (the Kelvin sign to `k`, for example), and the model does not.
- The browser's `maxLength` limit on the raw input of the CPF and phone fields is not modelled. The masks' results are proved to fit within it.
- `PaymentSession.CopyPixCode`: a rejected clipboard write is an unhandled rejection in the source. The model only keeps the state unchanged. The clipboard write and its outcome are one event, so a close that lands while the write is pending is not modelled; in the source, that close is followed by `setCopied(true)`, the toast and the timer on the reset dialog.
- The success response's fields are modelled as strings, with an absent field as the empty string. Both are falsy where the dialog tests them.
- A settled submit is a single event, and so is a timer firing. React's batching of state updates, and several overlapping copy timers, are not modelled.
- The transient `saving` and `uploadingGallery` flags are not modelled. They are set and cleared around the awaits.
- Some Admin.tsx handlers are not part of this model: banner and avatar upload, profile selection, gallery fetching, the admin check, logout and routing.
- The `created_at` ordering of the profile query and the `display_order` ordering of the gallery query are done by the database. The profile query is recorded as a request, but the order of the rows it returns is taken as given.

=== FILE: admin_profiles.dfy ===
/** The administrator's bookkeeping (src/pages/Admin.tsx): the profile list
    as loaded, created, saved and deleted; the URL slug's input filter and
    save-time check; the storage path of an uploaded file; and the gallery's
    append and delete.

    Database and storage calls are not performed: each handler receives the
    call's outcome as a parameter and reports the requests it issued. The
    clock is the parameter `now` (milliseconds since the epoch); prices are
    in cents. */
module AdminProfiles {
  import opened Common
  import opened Text

  datatype Profile = Profile(
    id: string,
    name: string,
    bio: string,
    bannerUrl: Option<string>,
    avatarUrl: Option<string>,
    priceCents: int,
    buttonText: string,
    buttonColor: Option<string>,
    deliverableLink: Option<string>,
    photosCount: int,
    videosCount: int,
    slug: Option<string>)

  datatype GalleryItem = GalleryItem(
    id: string,
    kind: string,
    url: string,
    thumbnailUrl: Option<string>,
    isPreview: bool,
    displayOrder: int)

  datatype View = ListView | EditView

  datatype AdminState = AdminState(
    loading: bool,
    profiles: seq<Profile>,
    selected: Option<Profile>,
    view: View,
    gallery: seq<GalleryItem>)

  datatype Toast = ToastError(text: string) | ToastSuccess(text: string)

  /** The database and storage requests a handler issues. */
  datatype Request =
    | SelectProfiles  // every profile, ordered by `created_at`, newest first
    | InsertProfile(name: string, bio: string, priceCents: int, slug: string)
    | UpdateProfile(id: string, changes: ProfileChanges)
    | DeleteProfileRow(id: string)
    | UploadObject(folder: string, fileName: string, now: nat)
    | InsertGalleryItem(kind: string, url: string, isPreview: bool, displayOrder: int)
    | DeleteGalleryRow(id: string)

  /** The columns `handleSaveProfile` writes (lines 281-291): every field of
      the profile except its id and its two image URLs. */
  datatype ProfileChanges = ProfileChanges(
    name: string,
    bio: string,
    priceCents: int,
    buttonText: string,
    buttonColor: Option<string>,
    deliverableLink: Option<string>,
    photosCount: int,
    videosCount: int,
    slug: Option<string>)

  /** The storage path of an upload request. */
  function StoragePath(r: Request): string
    requires r.UploadObject?
  {
    UploadPath(r.folder, r.fileName, r.now)
  }

  datatype AdminStep = AdminStep(state: AdminState, requests: seq<Request>, toasts: seq<Toast>)

  /** How a database write comes back; `code` is the Postgres error code. */
  datatype DbOutcome = DbOk | DbError(code: string)

  const DefaultButtonColor: string := "#f97316"
  const UniqueViolation: string := "23505"
  const SlugRuleMessage: string := "O slug deve conter apenas letras minúsculas, números e hífens"
  const SlugTakenMessage: string := "Este slug já está em uso. Escolha outro."
  const SaveFailedMessage: string := "Erro ao salvar"
  const SavedMessage: string := "Perfil salvo!"
  const DeleteFailedMessage: string := "Erro ao excluir perfil"
  const DeletedMessage: string := "Perfil excluído!"
  const CreateFailedMessage: string := "Erro ao criar perfil"
  const CreatedMessage: string := "Perfil criado! Configure o slug da URL."
  const UploadFailedMessage: string := "Erro ao fazer upload"
  const MediaAddedMessage: string := "Mídia adicionada!"
  const ItemDeleteFailedMessage: string := "Erro ao deletar"
  const ItemRemovedMessage: string := "Item removido!"
  const NewProfileName: string := "Novo Perfil"
  const NewProfileBio: string := "Descrição do perfil"
  /** R$ 29,90. */
  const NewProfilePriceCents: int := 2990

  // ---------------------------------------------------------------------------
  // Slugs (lines 272-276 and 448)
  // ---------------------------------------------------------------------------

  /** The character class `[a-z0-9-]`. */
  predicate SlugChar(c: char) {
    'a' <= c <= 'z' || IsDigit(c) || c == '-'
  }

  predicate AllSlugChars(s: string) {
    forall i :: 0 <= i < |s| ==> SlugChar(s[i])
  }

  /** `/^[a-z0-9-]+$/.test(s)`. */
  predicate SlugPatternOk(s: string) {
    |s| > 0 && AllSlugChars(s)
  }

  /** `toLowerCase` on the ASCII letters. */
  function LowerChar(c: char): (l: char)
    ensures 'A' <= c <= 'Z' ==> 'a' <= l <= 'z'
    ensures !('A' <= c <= 'Z') ==> l == c
  {
    if 'A' <= c <= 'Z' then (c as int - 'A' as int + 'a' as int) as char else c
  }

  /** The slug input's `onChange` filter: lower-case, then delete every
      character outside `[a-z0-9-]`. */
  function SanitizeSlug(s: string): (r: string)
    ensures AllSlugChars(r)
    ensures |r| <= |s|
  {
    if s == [] then []
    else
      var c := LowerChar(s[0]);
      (if SlugChar(c) then [c] else []) + SanitizeSlug(s[1..])
  }

  /** The filter works character by character, so it distributes over
      concatenation. */
  lemma {:induction false} SanitizeSlugAppend(a: string, b: string)
    ensures SanitizeSlug(a + b) == SanitizeSlug(a) + SanitizeSlug(b)
  {
    if a == [] {
      assert a + b == b;
    } else {
      var c := LowerChar(a[0]);
      var h := if SlugChar(c) then [c] else [];
      assert (a + b)[0] == a[0];
      assert (a + b)[1..] == a[1..] + b;
      assert SanitizeSlug(a + b) == h + SanitizeSlug(a[1..] + b);
      assert SanitizeSlug(a) == h + SanitizeSlug(a[1..]);
      SanitizeSlugAppend(a[1..], b);
    }
  }

  /** The filter leaves a string alone exactly when every character of it is
      already allowed; so filtering twice is filtering once. */
  lemma {:induction false} SanitizeSlugFixpoint(s: string)
    ensures SanitizeSlug(s) == s <==> AllSlugChars(s)
  {
    if s != [] {
      SanitizeSlugFixpoint(s[1..]);
      if SanitizeSlug(s) == s {
        assert |SanitizeSlug(s[1..])| <= |s[1..]|;
        assert SlugChar(LowerChar(s[0])) && LowerChar(s[0]) == s[0];
        assert SanitizeSlug(s[1..]) == s[1..];
      }
    }
  }

  lemma SanitizeSlugIdempotent(s: string)
    ensures SanitizeSlug(SanitizeSlug(s)) == SanitizeSlug(s)
  {
    SanitizeSlugFixpoint(SanitizeSlug(s));
  }

  /** Every letter, digit and hyphen typed survives the filter (letters
      lower-cased); nothing else does. */
  lemma {:induction false} SanitizeSlugKeeps(s: string, c: char)
    ensures c in SanitizeSlug(s) <==> SlugChar(c) && exists i :: 0 <= i < |s| && LowerChar(s[i]) == c
  {
    if s != [] {
      SanitizeSlugKeeps(s[1..], c);
      if SlugChar(c) && LowerChar(s[0]) != c && exists i :: 0 <= i < |s| && LowerChar(s[i]) == c {
        var i :| 0 <= i < |s| && LowerChar(s[i]) == c;
        assert 1 <= i && LowerChar(s[1..][i - 1]) == c;
      }
      if c in SanitizeSlug(s[1..]) {
        var i :| 0 <= i < |s[1..]| && LowerChar(s[1..][i]) == c;
        assert LowerChar(s[i + 1]) == c;
      }
    }
  }

  /** The save-time check never refuses a slug typed through the input: what
      the filter yields is either empty (and then not checked) or matches
      the pattern. */
  lemma TypedSlugPassesCheck(typed: string)
    ensures var s := SanitizeSlug(typed); s == "" || SlugPatternOk(s)
  {
  }

  /** `!(slug && !slugRegex.test(slug))`: an absent or empty slug is saved
      unchecked. */
  predicate SlugAcceptable(slug: Option<string>) {
    !Present(slug) || SlugPatternOk(slug.value)
  }

  // ---------------------------------------------------------------------------
  // Loading and creating profiles (lines 77-91, 106-135)
  // ---------------------------------------------------------------------------

  /** The defaults applied to a fetched or inserted row: an empty or missing
      button colour becomes orange, an empty link becomes `null`. */
  function Normalize(p: Profile): (n: Profile)
    ensures Present(n.buttonColor) && (n.deliverableLink.None? || Present(n.deliverableLink))
    ensures Present(p.buttonColor) ==> n.buttonColor == p.buttonColor
    ensures !Present(p.buttonColor) ==> n.buttonColor == Some(DefaultButtonColor)
    ensures Present(p.deliverableLink) ==> n.deliverableLink == p.deliverableLink
    ensures !Present(p.deliverableLink) ==> n.deliverableLink == None
    ensures n.(buttonColor := p.buttonColor, deliverableLink := p.deliverableLink) == p
  {
    p.(buttonColor := if Present(p.buttonColor) then p.buttonColor else Some(DefaultButtonColor),
       deliverableLink := if Present(p.deliverableLink) then p.deliverableLink else None)
  }

  predicate Normalized(p: Profile) {
    Present(p.buttonColor) && (p.deliverableLink.None? || Present(p.deliverableLink))
  }

  /** Applying the defaults to a row that already has them changes nothing,
      and only such rows are left unchanged. */
  lemma NormalizeFixpoint(p: Profile)
    ensures Normalize(p) == p <==> Normalized(p)
  {
  }

  function NormalizeAll(rows: seq<Profile>): (r: seq<Profile>)
    ensures |r| == |rows|
    ensures forall i :: 0 <= i < |rows| ==> r[i] == Normalize(rows[i])
  {
    if rows == [] then [] else [Normalize(rows[0])] + NormalizeAll(rows[1..])
  }

  /** `fetchProfiles`: one query for every profile, newest first (lines
      78-81); a returned list replaces the profiles, in the order returned,
      each with its defaults; no list keeps the old one. Loading ends either
      way, and no toast is raised. */
  function LoadProfiles(st: AdminState, data: Option<seq<Profile>>): (r: AdminStep)
    ensures r.requests == [SelectProfiles] && r.toasts == []
    ensures !r.state.loading
    ensures data.None? ==> r.state.profiles == st.profiles
    ensures data.Some? ==> |r.state.profiles| == |data.value|
    ensures data.Some? ==> forall i :: 0 <= i < |data.value| ==> r.state.profiles[i] == Normalize(data.value[i])
    ensures data.Some? ==> forall i :: 0 <= i < |r.state.profiles| ==> Normalized(r.state.profiles[i])
    ensures r.state.(loading := st.loading, profiles := st.profiles) == st
  {
    match data
    case None => AdminStep(st.(loading := false), [SelectProfiles], [])
    case Some(rows) => AdminStep(st.(loading := false, profiles := NormalizeAll(rows)), [SelectProfiles], [])
  }

  /** The slug a new profile starts with. */
  function NewProfileSlug(now: nat): string {
    "modelo-" + NatToString(now)
  }

  /** The generated slug would pass the save-time check unchanged. */
  lemma NewProfileSlugValid(now: nat)
    ensures SlugPatternOk(NewProfileSlug(now)) && SanitizeSlug(NewProfileSlug(now)) == NewProfileSlug(now)
  {
    var s := NewProfileSlug(now);
    var t := NatToString(now);
    forall i | 0 <= i < |s|
      ensures SlugChar(s[i])
    {
      if i >= 7 {
        assert s[i] == t[i - 7];
      }
    }
    SanitizeSlugFixpoint(s);
  }

  datatype CreateOutcome = CreateError | Created(row: Option<Profile>)

  /** `handleCreateProfile`: one insert with the fixed defaults; on success
      the new row, with its defaults, goes to the head of the list and is
      opened for editing. */
  function CreateProfile(st: AdminState, now: nat, outcome: CreateOutcome): (r: AdminStep)
    ensures r.requests == [InsertProfile(NewProfileName, NewProfileBio, NewProfilePriceCents, NewProfileSlug(now))]
    ensures outcome == CreateError ==> r.state == st && r.toasts == [ToastError(CreateFailedMessage)]
    ensures outcome == Created(None) ==> r.state == st && r.toasts == []
    ensures outcome.Created? && outcome.row.Some? ==>
      var n := Normalize(outcome.row.value);
      r.state.profiles == [n] + st.profiles && r.state.selected == Some(n) &&
      r.state.view == EditView && r.toasts == [ToastSuccess(CreatedMessage)]
    ensures r.state.(profiles := st.profiles, selected := st.selected, view := st.view) == st
  {
    var req := [InsertProfile(NewProfileName, NewProfileBio, NewProfilePriceCents, NewProfileSlug(now))];
    match outcome
    case CreateError => AdminStep(st, req, [ToastError(CreateFailedMessage)])
    case Created(None) => AdminStep(st, req, [])
    case Created(Some(row)) =>
      var n := Normalize(row);
      AdminStep(st.(profiles := [n] + st.profiles, selected := Some(n), view := EditView),
        req, [ToastSuccess(CreatedMessage)])
  }

  // ---------------------------------------------------------------------------
  // Saving and deleting profiles (lines 143-158, 268-306)
  // ---------------------------------------------------------------------------

  /** `profiles.map(p => p.id === saved.id ? saved : p)`. */
  function ReplaceById(ps: seq<Profile>, saved: Profile): (r: seq<Profile>)
    ensures |r| == |ps|
    ensures forall i :: 0 <= i < |ps| ==> r[i] == if ps[i].id == saved.id then saved else ps[i]
  {
    if ps == [] then []
    else [if ps[0].id == saved.id then saved else ps[0]] + ReplaceById(ps[1..], saved)
  }

  /** The update `handleSaveProfile` sends for profile `p`. */
  function UpdateFields(p: Profile): (c: ProfileChanges)
    ensures c.slug == p.slug && c.priceCents == p.priceCents
  {
    ProfileChanges(p.name, p.bio, p.priceCents, p.buttonText, p.buttonColor,
      p.deliverableLink, p.photosCount, p.videosCount, p.slug)
  }

  /** Two profiles send the same update exactly when they differ at most in
      their id and their two image URLs, the three columns the update leaves
      alone. */
  lemma UpdateOmitsIdAndImages(p: Profile, q: Profile)
    ensures UpdateFields(p) == UpdateFields(q) <==>
      p.(id := q.id, bannerUrl := q.bannerUrl, avatarUrl := q.avatarUrl) == q
  {
  }

  /** `handleSaveProfile`. */
  function SaveProfile(st: AdminState, outcome: DbOutcome): (r: AdminStep)
    ensures r.state.(profiles := st.profiles) == st
    ensures !(st.selected.Some? && SlugAcceptable(st.selected.value.slug)) ==> r.state == st
    ensures st.selected.None? ==> r == AdminStep(st, [], [])
    ensures st.selected.Some? && !SlugAcceptable(st.selected.value.slug) ==>
      r.requests == [] && r.toasts == [ToastError(SlugRuleMessage)]
    ensures st.selected.Some? && SlugAcceptable(st.selected.value.slug) ==>
      (outcome == DbOk ==> r.toasts == [ToastSuccess(SavedMessage)]) &&
      (outcome == DbError(UniqueViolation) ==> r.toasts == [ToastError(SlugTakenMessage)]) &&
      (outcome.DbError? && outcome.code != UniqueViolation ==> r.toasts == [ToastError(SaveFailedMessage)])
  {
    match st.selected
    case None => AdminStep(st, [], [])
    case Some(p) =>
      if !SlugAcceptable(p.slug) then
        AdminStep(st, [], [ToastError(SlugRuleMessage)])
      else
        var req := [UpdateProfile(p.id, UpdateFields(p))];
        match outcome
        case DbError(code) =>
          AdminStep(st, req, [ToastError(if code == UniqueViolation then SlugTakenMessage else SaveFailedMessage)])
        case DbOk =>
          AdminStep(st.(profiles := ReplaceById(st.profiles, p)), req, [ToastSuccess(SavedMessage)])
  }

  /** The update is sent exactly when a profile is open and its slug is
      absent, empty or well formed; a malformed slug is refused locally with
      the rule spelled out. */
  lemma SaveSendsIff(st: AdminState, outcome: DbOutcome)
    ensures SaveProfile(st, outcome).requests != [] <==>
      st.selected.Some? && SlugAcceptable(st.selected.value.slug)
    ensures SaveProfile(st, outcome).requests != [] ==>
      SaveProfile(st, outcome).requests ==
        [UpdateProfile(st.selected.value.id, UpdateFields(st.selected.value))]
    ensures st.selected.Some? && !SlugAcceptable(st.selected.value.slug) ==>
      SaveProfile(st, outcome).toasts == [ToastError(SlugRuleMessage)]
  {
  }

  /** A successful save puts the open profile in place of every entry with its
      id and leaves every other entry, and the order, as it was; a failed one
      changes no entry, and a duplicate slug is reported as such. */
  lemma SaveReplacesInPlace(st: AdminState, outcome: DbOutcome)
    requires st.selected.Some? && SlugAcceptable(st.selected.value.slug)
    ensures var r := SaveProfile(st, outcome); var p := st.selected.value;
      outcome == DbOk ==>
        |r.state.profiles| == |st.profiles| &&
        (forall i :: 0 <= i < |st.profiles| ==>
          r.state.profiles[i].id == st.profiles[i].id &&
          (st.profiles[i].id == p.id ==> r.state.profiles[i] == p) &&
          (st.profiles[i].id != p.id ==> r.state.profiles[i] == st.profiles[i]))
    ensures outcome.DbError? ==> SaveProfile(st, outcome).state == st
    ensures outcome == DbError(UniqueViolation) ==>
      SaveProfile(st, outcome).toasts == [ToastError(SlugTakenMessage)]
  {
  }

  /** A slug that went through the input filter never blocks a save. */
  lemma TypedSlugNeverBlocksSave(st: AdminState, typed: string, outcome: DbOutcome)
    requires st.selected.Some?
    ensures var s := st.(selected := Some(st.selected.value.(slug := Some(SanitizeSlug(typed)))));
      SaveProfile(s, outcome).requests != []
  {
    TypedSlugPassesCheck(typed);
  }

  function ProfileId(p: Profile): string { p.id }

  function ItemId(x: GalleryItem): string { x.id }

  /** `xs.filter(x => idOf(x) !== id)`: the entries whose id differs from
      `id`, in their original order. The list of profiles and the gallery
      are both filtered this way. */
  function Without<T(==,!new)>(xs: seq<T>, idOf: T -> string, id: string): (r: seq<T>)
    ensures |r| <= |xs|
    ensures forall x :: x in r <==> x in xs && idOf(x) != id
  {
    if xs == [] then []
    else
      var rest := Without(xs[1..], idOf, id);
      assert forall x :: x in xs <==> x == xs[0] || x in xs[1..];
      (if idOf(xs[0]) != id then [xs[0]] else []) + rest
  }

  /** Filtering works entry by entry: the filter of a concatenation is the
      concatenation of the filters, so the kept entries keep their order and
      their number. */
  lemma {:induction false} WithoutAppend<T(!new)>(a: seq<T>, b: seq<T>, idOf: T -> string, id: string)
    ensures Without(a + b, idOf, id) == Without(a, idOf, id) + Without(b, idOf, id)
    decreases |a|
  {
    if a == [] {
      assert a + b == b;
    } else {
      assert (a + b)[0] == a[0];
      assert (a + b)[1..] == a[1..] + b;
      WithoutAppend(a[1..], b, idOf, id);
    }
  }

  /** A list with no entry carrying `id` comes back unchanged. */
  lemma {:induction false} WithoutKeepsOthers<T(!new)>(xs: seq<T>, idOf: T -> string, id: string)
    requires forall i :: 0 <= i < |xs| ==> idOf(xs[i]) != id
    ensures Without(xs, idOf, id) == xs
    decreases |xs|
  {
    if xs != [] {
      WithoutKeepsOthers(xs[1..], idOf, id);
      assert [xs[0]] + xs[1..] == xs;
    }
  }

  /** A list whose every entry carries `id` comes back empty. */
  lemma {:induction false} WithoutDropsMatches<T(!new)>(xs: seq<T>, idOf: T -> string, id: string)
    requires forall i :: 0 <= i < |xs| ==> idOf(xs[i]) == id
    ensures Without(xs, idOf, id) == []
    decreases |xs|
  {
    if xs != [] {
      WithoutDropsMatches(xs[1..], idOf, id);
    }
  }

  /** With `x` the one entry carrying `id`, filtering leaves the entries
      before and after it, in order. */
  lemma DropOne<T(!new)>(before: seq<T>, x: T, after: seq<T>, idOf: T -> string, id: string)
    requires idOf(x) == id
    requires forall i :: 0 <= i < |before| ==> idOf(before[i]) != id
    requires forall i :: 0 <= i < |after| ==> idOf(after[i]) != id
    ensures Without(before + [x] + after, idOf, id) == before + after
  {
    var front := before + [x];
    WithoutAppend(front, after, idOf, id);
    WithoutAppend(before, [x], idOf, id);
    WithoutKeepsOthers(before, idOf, id);
    WithoutKeepsOthers(after, idOf, id);
    WithoutDropsMatches([x], idOf, id);
    assert Without(front, idOf, id) == before;
    assert Without(front + after, idOf, id) == before + after;
  }

  /** `handleDeleteProfile`: a declined confirmation sends nothing; a failed
      delete changes nothing; a successful one drops exactly the entries with
      that id. */
  function DeleteProfile(st: AdminState, id: string, confirmed: bool, outcome: DbOutcome): (r: AdminStep)
    ensures !confirmed ==> r == AdminStep(st, [], [])
    ensures confirmed ==> r.requests == [DeleteProfileRow(id)]
    ensures outcome.DbError? ==> r.state == st
    ensures confirmed && outcome == DbOk ==> r.state.profiles == Without(st.profiles, ProfileId, id)
    ensures confirmed && outcome.DbError? ==> r.toasts == [ToastError(DeleteFailedMessage)]
    ensures confirmed && outcome == DbOk ==> r.toasts == [ToastSuccess(DeletedMessage)]
    ensures r.state.(profiles := st.profiles) == st
  {
    if !confirmed then AdminStep(st, [], [])
    else
      match outcome
      case DbError(_) => AdminStep(st, [DeleteProfileRow(id)], [ToastError(DeleteFailedMessage)])
      case DbOk =>
        AdminStep(st.(profiles := Without(st.profiles, ProfileId, id)), [DeleteProfileRow(id)], [ToastSuccess(DeletedMessage)])
  }

  /** After a confirmed, successful delete no entry has the id, and every
      entry with another id is still listed. */
  lemma DeleteRemovesOnlyThatId(st: AdminState, id: string)
    ensures var ps := DeleteProfile(st, id, true, DbOk).state.profiles;
      forall p :: p in ps <==> p in st.profiles && p.id != id
  {
  }

  /** Ids are unique in the table, so the list holds at most one entry with
      the deleted id: a successful delete leaves the entries before and after
      it, in their order. */
  lemma DeleteKeepsOthersInOrder(st: AdminState, id: string, before: seq<Profile>, x: Profile, after: seq<Profile>)
    requires st.profiles == before + [x] + after && x.id == id
    requires forall i :: 0 <= i < |before| ==> before[i].id != id
    requires forall i :: 0 <= i < |after| ==> after[i].id != id
    ensures DeleteProfile(st, id, true, DbOk).state.profiles == before + after
  {
    DropOne(before, x, after, ProfileId, id);
  }

  // ---------------------------------------------------------------------------
  // Upload paths (lines 160-175)
  // ---------------------------------------------------------------------------

  /** `name.split('.').pop()`: the text after the last dot, or the whole name
      when there is no dot. */
  function FileExtension(name: string): (ext: string)
    ensures |ext| <= |name| && ext == name[|name| - |ext|..]
    ensures forall i :: 0 <= i < |ext| ==> ext[i] != '.'
    ensures |ext| < |name| ==> name[|name| - |ext| - 1] == '.'
    decreases |name|
  {
    if name == [] then []
    else if name[|name| - 1] == '.' then []
    else FileExtension(name[..|name| - 1]) + [name[|name| - 1]]
  }

  /** `${folder}/${Date.now()}.${ext}`. */
  function UploadPath(folder: string, fileName: string, now: nat): (path: string)
    ensures InFolderWithExtension(path, folder, FileExtension(fileName))
  {
    PathShape(folder, NatToString(now), FileExtension(fileName));
    folder + "/" + StoredName(fileName, now)
  }

  /** `path` starts with the folder and a slash and ends with a dot and the
      extension. */
  predicate InFolderWithExtension(path: string, folder: string, ext: string) {
    |folder| < |path| && path[..|folder| + 1] == folder + "/" &&
    |ext| < |path| && path[|path| - |ext|..] == ext && path[|path| - |ext| - 1] == '.'
  }

  lemma PathShape(folder: string, stamp: string, ext: string)
    ensures InFolderWithExtension(folder + "/" + (stamp + "." + ext), folder, ext)
  {
    var pre := folder + "/" + stamp + ".";
    assert folder + "/" + (stamp + "." + ext) == pre + ext;
    assert pre[|pre| - 1] == '.';
    DotBeforeSuffix(pre, ext);
  }

  /** A suffix appended after a dot ends the string, dot first. */
  lemma DotBeforeSuffix(pre: string, ext: string)
    requires |pre| >= 1 && pre[|pre| - 1] == '.'
    ensures var s := pre + ext;
      |ext| < |s| && s[|s| - |ext|..] == ext && s[|s| - |ext| - 1] == '.'
  {
    var s := pre + ext;
    assert s[|pre|..] == ext;
    assert s[|pre| - 1] == pre[|pre| - 1];
  }

  /** The part of the path after the folder: `${Date.now()}.${ext}`. */
  function StoredName(fileName: string, now: nat): string {
    NatToString(now) + "." + FileExtension(fileName)
  }

  lemma PrefixCancel(p: string, a: string, b: string)
    requires p + a == p + b
    ensures a == b
  {
    assert a == (p + a)[|p|..];
    assert b == (p + b)[|p|..];
  }

  /** Position of the first dot of `s`, or `|s|` when there is none. */
  function FirstDot(s: string): (k: nat)
    ensures k <= |s|
  {
    if s == [] || s[0] == '.' then 0 else 1 + FirstDot(s[1..])
  }

  /** In a digit string followed by a dot, the first dot is the one after the
      digits. */
  lemma {:induction false} FirstDotAfterDigits(a: string, x: string)
    requires AllDigits(a)
    ensures FirstDot(a + "." + x) == |a|
  {
    if a != [] {
      assert (a + "." + x)[1..] == a[1..] + "." + x;
      FirstDotAfterDigits(a[1..], x);
    }
  }

  /** Two digit strings each followed by a dot can only be equal as a whole
      when the digit strings are. */
  lemma DigitsBeforeDot(a: string, b: string, x: string, y: string)
    requires AllDigits(a) && AllDigits(b)
    requires a + "." + x == b + "." + y
    ensures a == b
  {
    FirstDotAfterDigits(a, x);
    FirstDotAfterDigits(b, y);
    assert a == (a + "." + x)[..|a|];
    assert b == (b + "." + y)[..|b|];
  }

  /** Files stored in the same folder under the same path were stored at the
      same instant: the path determines the clock reading. */
  lemma UploadPathTimestamp(folder: string, name1: string, name2: string, now1: nat, now2: nat)
    requires UploadPath(folder, name1, now1) == UploadPath(folder, name2, now2)
    ensures now1 == now2
  {
    PrefixCancel(folder + "/", StoredName(name1, now1), StoredName(name2, now2));
    DigitsBeforeDot(NatToString(now1), NatToString(now2), FileExtension(name1), FileExtension(name2));
    NatToStringRoundTrip(now1);
    NatToStringRoundTrip(now2);
  }

  /** Files stored in the same folder at different instants never share a
      path, whatever their names. */
  lemma UploadPathsDistinct(folder: string, name1: string, name2: string, now1: nat, now2: nat)
    requires now1 != now2
    ensures UploadPath(folder, name1, now1) != UploadPath(folder, name2, now2)
  {
    if UploadPath(folder, name1, now1) == UploadPath(folder, name2, now2) {
      UploadPathTimestamp(folder, name1, name2, now1, now2);
    }
  }

  // ---------------------------------------------------------------------------
  // The gallery (lines 223-266)
  // ---------------------------------------------------------------------------

  datatype MediaKind = Photo | Video

  function KindName(k: MediaKind): string {
    match k
    case Photo => "photo"
    case Video => "video"
  }

  function Folder(k: MediaKind): string {
    match k
    case Photo => "photos"
    case Video => "videos"
  }

  datatype InsertOutcome = InsertError | Inserted(row: Option<GalleryItem>)

  /** One file of a batch: its name, the clock when its upload starts, the
      public URL the upload yields (`None` when it fails), and the insert's
      outcome. */
  datatype FileAttempt = FileAttempt(name: string, now: nat, upload: Option<string>, insert: InsertOutcome)

  predicate AttemptSucceeds(a: FileAttempt) {
    a.upload.Some? && !a.insert.InsertError?
  }

  /** The row one attempt's insert returns, if any. */
  function RowOf(a: FileAttempt): seq<GalleryItem> {
    if a.insert.Inserted? && a.insert.row.Some? then [a.insert.row.value] else []
  }

  /** The rows a fully successful prefix of the batch adds, in order. */
  function AddedRows(attempts: seq<FileAttempt>): seq<GalleryItem> {
    if attempts == [] || !AttemptSucceeds(attempts[0]) then []
    else RowOf(attempts[0]) + AddedRows(attempts[1..])
  }

  predicate AllSucceed(attempts: seq<FileAttempt>) {
    forall i :: 0 <= i < |attempts| ==> AttemptSucceeds(attempts[i])
  }

  lemma AllSucceedCons(attempts: seq<FileAttempt>)
    requires attempts != []
    ensures AllSucceed(attempts) <==> AttemptSucceeds(attempts[0]) && AllSucceed(attempts[1..])
  {
    if AttemptSucceeds(attempts[0]) && AllSucceed(attempts[1..]) {
      forall i | 0 <= i < |attempts|
        ensures AttemptSucceeds(attempts[i])
      {
        if i > 0 {
          assert attempts[i] == attempts[1..][i - 1];
        }
      }
    }
  }

  datatype BatchResult = BatchResult(items: seq<GalleryItem>, requests: seq<Request>, failed: bool)

  /** The `for` loop of `handleGalleryUpload`, file by file, stopping at the
      first failed upload or insert; `order` is the gallery's length when the
      handler started, which every insert reuses. */
  function UploadLoop(items: seq<GalleryItem>, kind: MediaKind, order: int, attempts: seq<FileAttempt>): (r: BatchResult)
    ensures r.items == items + AddedRows(attempts)
    ensures r.failed <==> !AllSucceed(attempts)
    decreases |attempts|
  {
    if attempts == [] then BatchResult(items, [], false)
    else
      var a := attempts[0];
      var upload := UploadObject(Folder(kind), a.name, a.now);
      AllSucceedCons(attempts);
      if a.upload.None? then
        BatchResult(items, [upload], true)
      else
        var insert := InsertGalleryItem(KindName(kind), a.upload.value, true, order);
        if a.insert.InsertError? then
          BatchResult(items, [upload, insert], true)
        else
          var added := RowOf(a);
          var rest := UploadLoop(items + added, kind, order, attempts[1..]);
          assert items + added + AddedRows(attempts[1..]) == items + AddedRows(attempts);
          BatchResult(rest.items, [upload, insert] + rest.requests, rest.failed)
  }

  /** A request the upload loop may issue: an insert of the batch's kind at
      the captured order, or an upload of one of the batch's files into the
      kind's folder. */
  predicate BatchRequest(r: Request, kind: MediaKind, order: int, attempts: seq<FileAttempt>) {
    (r.InsertGalleryItem? && r.displayOrder == order && r.kind == KindName(kind) && r.isPreview) ||
    (r.UploadObject? && r.folder == Folder(kind) &&
     exists a :: a in attempts && r.fileName == a.name && r.now == a.now)
  }

  lemma BatchRequestWiden(r: Request, kind: MediaKind, order: int, attempts: seq<FileAttempt>)
    requires attempts != [] && BatchRequest(r, kind, order, attempts[1..])
    ensures BatchRequest(r, kind, order, attempts)
  {
    if r.UploadObject? {
      var a :| a in attempts[1..] && r.fileName == a.name && r.now == a.now;
      assert a in attempts;
    }
  }

  /** Every insert the loop issues carries the order it was given, and every
      upload goes to the kind's folder under one of the batch's names. */
  lemma {:induction false} LoopRequests(items: seq<GalleryItem>, kind: MediaKind, order: int, attempts: seq<FileAttempt>)
    ensures forall i :: 0 <= i < |UploadLoop(items, kind, order, attempts).requests| ==>
      BatchRequest(UploadLoop(items, kind, order, attempts).requests[i], kind, order, attempts)
    decreases |attempts|
  {
    if attempts != [] && attempts[0].upload.Some? && !attempts[0].insert.InsertError? {
      var a := attempts[0];
      var added := RowOf(a);
      LoopRequests(items + added, kind, order, attempts[1..]);
      var rest := UploadLoop(items + added, kind, order, attempts[1..]).requests;
      var rs := UploadLoop(items, kind, order, attempts).requests;
      assert rs == [UploadObject(Folder(kind), a.name, a.now),
                    InsertGalleryItem(KindName(kind), a.upload.value, true, order)] + rest;
      assert BatchRequest(rs[0], kind, order, attempts) by {
        assert attempts[0] in attempts;
      }
      forall i | 2 <= i < |rs|
        ensures BatchRequest(rs[i], kind, order, attempts)
      {
        assert rs[i] == rest[i - 2];
        BatchRequestWiden(rest[i - 2], kind, order, attempts);
      }
    } else if attempts != [] {
      assert attempts[0] in attempts;
    }
  }

  /** One turn of the loop: the first file's upload, then its insert when
      the upload gave a URL, then the rest of the batch when both succeeded. */
  lemma LoopStep(items: seq<GalleryItem>, kind: MediaKind, order: int, attempts: seq<FileAttempt>)
    requires attempts != []
    ensures var a := attempts[0];
      var b := UploadLoop(items, kind, order, attempts);
      var upload := UploadObject(Folder(kind), a.name, a.now);
      (a.upload.None? ==> b.requests == [upload] && b.failed) &&
      (a.upload.Some? && a.insert.InsertError? ==>
        b.requests == [upload, InsertGalleryItem(KindName(kind), a.upload.value, true, order)] && b.failed) &&
      (AttemptSucceeds(a) ==>
        var rest := UploadLoop(items + RowOf(a), kind, order, attempts[1..]);
        b.requests == [upload, InsertGalleryItem(KindName(kind), a.upload.value, true, order)] + rest.requests &&
        b.failed == rest.failed)
  {
  }

  /** The loop's requests come in pairs, file by file: file `k` issues its
      upload at position `2k`. */
  lemma LoopUploadPositions(items: seq<GalleryItem>, kind: MediaKind, order: int, attempts: seq<FileAttempt>)
    ensures var rs := UploadLoop(items, kind, order, attempts).requests;
      forall k :: 0 <= k < |attempts| && 2 * k < |rs| ==>
        rs[2 * k] == UploadObject(Folder(kind), attempts[k].name, attempts[k].now)
  {
    forall k | 0 <= k < |attempts| && 2 * k < |UploadLoop(items, kind, order, attempts).requests| {
      UploadAt(items, kind, order, attempts, k);
    }
  }

  lemma {:induction false} UploadAt(items: seq<GalleryItem>, kind: MediaKind, order: int, attempts: seq<FileAttempt>, k: nat)
    requires k < |attempts| && 2 * k < |UploadLoop(items, kind, order, attempts).requests|
    ensures UploadLoop(items, kind, order, attempts).requests[2 * k] ==
      UploadObject(Folder(kind), attempts[k].name, attempts[k].now)
    decreases k
  {
    var a := attempts[0];
    var rs := UploadLoop(items, kind, order, attempts).requests;
    LoopStep(items, kind, order, attempts);
    if k > 0 {
      var tail := attempts[1..];
      var rest := UploadLoop(items + RowOf(a), kind, order, tail).requests;
      UploadAt(items + RowOf(a), kind, order, tail, k - 1);
      assert rs[2 * k] == rest[2 * (k - 1)];
      assert attempts[k] == tail[k - 1];
    }
  }

  /** File `k` issues its insert at position `2k + 1`, and only when its
      upload gave a URL; the insert carries that URL. */
  lemma LoopInsertPositions(items: seq<GalleryItem>, kind: MediaKind, order: int, attempts: seq<FileAttempt>)
    ensures var rs := UploadLoop(items, kind, order, attempts).requests;
      forall k :: 0 <= k < |attempts| && 2 * k + 1 < |rs| ==>
        attempts[k].upload.Some? &&
        rs[2 * k + 1] == InsertGalleryItem(KindName(kind), attempts[k].upload.value, true, order)
  {
    forall k | 0 <= k < |attempts| && 2 * k + 1 < |UploadLoop(items, kind, order, attempts).requests| {
      InsertAt(items, kind, order, attempts, k);
    }
  }

  lemma {:induction false} InsertAt(items: seq<GalleryItem>, kind: MediaKind, order: int, attempts: seq<FileAttempt>, k: nat)
    requires k < |attempts| && 2 * k + 1 < |UploadLoop(items, kind, order, attempts).requests|
    ensures attempts[k].upload.Some? &&
      UploadLoop(items, kind, order, attempts).requests[2 * k + 1] ==
        InsertGalleryItem(KindName(kind), attempts[k].upload.value, true, order)
    decreases k
  {
    var a := attempts[0];
    var rs := UploadLoop(items, kind, order, attempts).requests;
    var insert := InsertGalleryItem(KindName(kind), a.upload.value, true, order);
    if k == 0 {
      assert a.upload.Some? && rs[1] == insert by {
        LoopStep(items, kind, order, attempts);
      }
    } else {
      var tail := attempts[1..];
      var rest := UploadLoop(items + RowOf(a), kind, order, tail).requests;
      assert rs == [UploadObject(Folder(kind), a.name, a.now), insert] + rest by {
        LoopStep(items, kind, order, attempts);
      }
      InsertAt(items + RowOf(a), kind, order, tail, k - 1);
      assert rs[2 * k + 1] == rest[2 * (k - 1) + 1];
      assert attempts[k] == tail[k - 1];
    }
  }

  /** At most two requests per file, and exactly two when the batch went
      through. */
  lemma {:induction false} LoopRequestCount(items: seq<GalleryItem>, kind: MediaKind, order: int, attempts: seq<FileAttempt>)
    ensures var b := UploadLoop(items, kind, order, attempts);
      |b.requests| <= 2 * |attempts| && (!b.failed ==> |b.requests| == 2 * |attempts|)
    decreases |attempts|
  {
    if attempts != [] {
      LoopStep(items, kind, order, attempts);
      if AttemptSucceeds(attempts[0]) {
        LoopRequestCount(items + RowOf(attempts[0]), kind, order, attempts[1..]);
      }
    }
  }

  /** The loop stops at the first failing file: a file is followed by
      further requests only when it fully succeeded. */
  lemma LoopStopsAtFailure(items: seq<GalleryItem>, kind: MediaKind, order: int, attempts: seq<FileAttempt>)
    ensures var rs := UploadLoop(items, kind, order, attempts).requests;
      forall k :: 0 <= k < |attempts| && 2 * k + 2 < |rs| ==> AttemptSucceeds(attempts[k])
  {
    forall k | 0 <= k < |attempts| && 2 * k + 2 < |UploadLoop(items, kind, order, attempts).requests| {
      ReachedOnlyAfterSuccess(items, kind, order, attempts, k);
    }
  }

  lemma {:induction false} ReachedOnlyAfterSuccess(items: seq<GalleryItem>, kind: MediaKind, order: int, attempts: seq<FileAttempt>, k: nat)
    requires k < |attempts| && 2 * k + 2 < |UploadLoop(items, kind, order, attempts).requests|
    ensures AttemptSucceeds(attempts[k])
    decreases k
  {
    LoopStep(items, kind, order, attempts);
    if k > 0 {
      var a, tail := attempts[0], attempts[1..];
      ReachedOnlyAfterSuccess(items + RowOf(a), kind, order, tail, k - 1);
      assert attempts[k] == tail[k - 1];
    }
  }

  /** A failed batch ends with the requests of a failing file. */
  lemma {:induction false} LoopEndsAtFailure(items: seq<GalleryItem>, kind: MediaKind, order: int, attempts: seq<FileAttempt>)
    ensures var b := UploadLoop(items, kind, order, attempts);
      b.failed ==> 1 <= |b.requests| <= 2 * |attempts| && !AttemptSucceeds(attempts[(|b.requests| - 1) / 2])
    decreases |attempts|
  {
    if attempts != [] {
      var a := attempts[0];
      var b := UploadLoop(items, kind, order, attempts);
      LoopStep(items, kind, order, attempts);
      LoopRequestCount(items, kind, order, attempts);
      if AttemptSucceeds(a) && b.failed {
        var tail := attempts[1..];
        var rest := UploadLoop(items + RowOf(a), kind, order, tail).requests;
        LoopEndsAtFailure(items + RowOf(a), kind, order, tail);
        assert |b.requests| == 2 + |rest|;
        assert (|b.requests| - 1) / 2 == (|rest| - 1) / 2 + 1;
        assert attempts[(|b.requests| - 1) / 2] == tail[(|rest| - 1) / 2];
      }
    }
  }

  /** `handleGalleryUpload`: the batch's rows are appended in order until the
      first failure; the toast says whether the whole batch went through.
      `None` is an input without a file list. */
  function GalleryUpload(st: AdminState, kind: MediaKind, files: Option<seq<FileAttempt>>): (r: AdminStep)
    ensures files.None? ==> r == AdminStep(st, [], [])
    ensures files.Some? ==> r.state.gallery == st.gallery + AddedRows(files.value)
    ensures files.Some? ==>
      r.toasts == [if AllSucceed(files.value) then ToastSuccess(MediaAddedMessage) else ToastError(UploadFailedMessage)]
    ensures r.state.(gallery := st.gallery) == st
  {
    match files
    case None => AdminStep(st, [], [])
    case Some(attempts) =>
      var b := UploadLoop(st.gallery, kind, |st.gallery|, attempts);
      AdminStep(st.(gallery := b.items), b.requests,
        [if b.failed then ToastError(UploadFailedMessage) else ToastSuccess(MediaAddedMessage)])
  }

  /** Every insert of one batch carries the same `display_order`: the
      gallery's length before the batch. A batch of several files therefore
      stores them all at one position. */
  lemma BatchSharesDisplayOrder(st: AdminState, kind: MediaKind, attempts: seq<FileAttempt>)
    ensures var rs := GalleryUpload(st, kind, Some(attempts)).requests;
      forall i :: 0 <= i < |rs| && rs[i].InsertGalleryItem? ==> rs[i].displayOrder == |st.gallery|
  {
    LoopRequests(st.gallery, kind, |st.gallery|, attempts);
    var rs := UploadLoop(st.gallery, kind, |st.gallery|, attempts).requests;
    assert GalleryUpload(st, kind, Some(attempts)).requests == rs;
    forall i | 0 <= i < |rs| && rs[i].InsertGalleryItem?
      ensures rs[i].displayOrder == |st.gallery|
    {
      assert BatchRequest(rs[i], kind, |st.gallery|, attempts);
    }
  }

  /** Two uploads of one batch made at different instants are stored under
      different paths, whatever the files are called. */
  lemma BatchPathsDistinct(st: AdminState, kind: MediaKind, attempts: seq<FileAttempt>, i: nat, j: nat)
    requires var rs := GalleryUpload(st, kind, Some(attempts)).requests;
      i < |rs| && j < |rs| && rs[i].UploadObject? && rs[j].UploadObject? && rs[i].now != rs[j].now
    ensures var rs := GalleryUpload(st, kind, Some(attempts)).requests;
      StoragePath(rs[i]) != StoragePath(rs[j])
  {
    LoopRequests(st.gallery, kind, |st.gallery|, attempts);
    var rs := UploadLoop(st.gallery, kind, |st.gallery|, attempts).requests;
    assert GalleryUpload(st, kind, Some(attempts)).requests == rs;
    assert BatchRequest(rs[i], kind, |st.gallery|, attempts);
    assert BatchRequest(rs[j], kind, |st.gallery|, attempts);
    UploadPathsDistinct(Folder(kind), rs[i].fileName, rs[j].fileName, rs[i].now, rs[j].now);
  }

  /** Uploads only ever add to the gallery: the items present before stay, in
      place, and what follows them is exactly the rows the inserts returned. */
  lemma {:induction false} GalleryOnlyGrows(st: AdminState, kind: MediaKind, attempts: seq<FileAttempt>)
    ensures var g := GalleryUpload(st, kind, Some(attempts)).state.gallery;
      st.gallery <= g && |g| - |st.gallery| <= |attempts|
  {
    AddedRowsBound(attempts);
  }

  lemma {:induction false} AddedRowsBound(attempts: seq<FileAttempt>)
    ensures |AddedRows(attempts)| <= |attempts|
  {
    if attempts != [] && AttemptSucceeds(attempts[0]) {
      AddedRowsBound(attempts[1..]);
    }
  }

  /** `handleDeleteGalleryItem`: a failed delete changes nothing; a successful
      one drops exactly the items with that id. */
  function DeleteGalleryItem(st: AdminState, id: string, outcome: DbOutcome): (r: AdminStep)
    ensures r.requests == [DeleteGalleryRow(id)]
    ensures outcome.DbError? ==> r.state == st && r.toasts == [ToastError(ItemDeleteFailedMessage)]
    ensures outcome == DbOk ==>
      r.state.gallery == Without(st.gallery, ItemId, id) &&
      (forall x :: x in r.state.gallery <==> x in st.gallery && x.id != id) &&
      r.toasts == [ToastSuccess(ItemRemovedMessage)]
    ensures r.state.(gallery := st.gallery) == st
  {
    match outcome
    case DbError(_) => AdminStep(st, [DeleteGalleryRow(id)], [ToastError(ItemDeleteFailedMessage)])
    case DbOk =>
      AdminStep(st.(gallery := Without(st.gallery, ItemId, id)), [DeleteGalleryRow(id)], [ToastSuccess(ItemRemovedMessage)])
  }

  /** The gallery counterpart of `DeleteKeepsOthersInOrder`: deleting the one
      item with `id` leaves the items before and after it, in order. */
  lemma DeleteGalleryKeepsOthersInOrder(st: AdminState, id: string, before: seq<GalleryItem>, x: GalleryItem, after: seq<GalleryItem>)
    requires st.gallery == before + [x] + after && x.id == id
    requires forall i :: 0 <= i < |before| ==> before[i].id != id
    requires forall i :: 0 <= i < |after| ==> after[i].id != id
    ensures DeleteGalleryItem(st, id, DbOk).state.gallery == before + after
  {
    DropOne(before, x, after, ItemId, id);
  }
}

=== FILE: common.dfy ===
/** Optional values, shared by every module of the model. `None` stands for
    a JavaScript `null` or `undefined` wherever the code treats the two
    alike; where it does not, a module keeps them apart. */
module Common {

  datatype Option<+T> = None | Some(value: T)

  /** A value that may be absent or empty counts as falsy in JavaScript. */
  predicate Present(o: Option<string>) {
    o.Some? && o.value != ""
  }
}

=== FILE: masks.dfy ===
/** The two input masks of the purchase form, `formatCPF` and `formatPhone`
    (src/components/PaymentModal.tsx:34-49).

    Each mask strips the non-digits and then applies a chain of
    `String.prototype.replace` calls with NON-global regular expressions, so
    every step rewrites only the leftmost match. The model follows that chain
    step by step (`FormatCpf`, `FormatPhone`) and proves it equal to an
    independent reference: the digits poured, in order, into the slots of a
    mask such as `###.###.###-##` (`Fill`). */
module Masks {
  import opened Common
  import opened Text

  // ---------------------------------------------------------------------------
  // The regular-expression steps
  // ---------------------------------------------------------------------------

  /** `len` consecutive digits start at index `i` of `s`. */
  predicate RunAt(s: string, i: nat, len: nat) {
    i + len <= |s| && forall j :: i <= j < i + len ==> IsDigit(s[j])
  }

  /** The leftmost index at or after `from` where a pattern of `len` digits,
      such as `(\d{3})(\d)`, matches. */
  function FindRun(s: string, len: nat, from: nat): (r: Option<nat>)
    decreases |s| - from
    ensures r.Some? ==> from <= r.value && RunAt(s, r.value, len)
    ensures r.Some? ==> forall j: nat :: from <= j < r.value ==> !RunAt(s, j, len)
    ensures r.None? ==> forall j: nat :: from <= j ==> !RunAt(s, j, len)
  {
    if from + len > |s| then None
    else if RunAt(s, from, len) then Some(from)
    else FindRun(s, len, from + 1)
  }

  /** One non-global digit-group rewrite: the leftmost run of `len` digits gets
      `open` in front of it and `sep` after its first `split` digits; without
      a match the string is returned unchanged.
      - `/(\d{3})(\d)/` to `'$1.$2'` is `RewriteFirstRun(s, 4, 3, "", ".")`;
      - `/(\d{3})(\d{1,2})/` to `'$1-$2'` matches where a 4-digit run starts
        and only inserts `-` after its third digit, however many digits the
        greedy second group took, so it is `RewriteFirstRun(s, 4, 3, "", "-")`;
      - `/(\d{2})(\d)/` to `'($1) $2'` is `RewriteFirstRun(s, 3, 2, "(", ") ")`. */
  function RewriteFirstRun(s: string, len: nat, split: nat, open: string, sep: string): (r: string)
    requires split <= len
  {
    match FindRun(s, len, 0)
    case None => s
    case Some(i) => s[..i] + open + s[i..i + split] + sep + s[i + split..]
  }

  /** A rewrite only inserts digit-free text, so the digits are unchanged. */
  lemma RewriteKeepsDigits(s: string, len: nat, split: nat, open: string, sep: string)
    requires split <= len && NoDigits(open) && NoDigits(sep)
    ensures Digits(RewriteFirstRun(s, len, split, open, sep)) == Digits(s)
  {
    match FindRun(s, len, 0)
    case None =>
    case Some(i) =>
      var a, g, b := s[..i], s[i..i + split], s[i + split..];
      InsertKeepsDigits(a, open, g, sep, b);
      assert s == a + g + b;
      DigitsAppend(a + g, b);
      DigitsAppend(a, g);
  }

  /** Inserting digit-free text between pieces leaves the digits alone. */
  lemma InsertKeepsDigits(a: string, open: string, g: string, sep: string, b: string)
    ensures NoDigits(open) && NoDigits(sep) ==>
      Digits(a + open + g + sep + b) == Digits(a) + Digits(g) + Digits(b)
  {
    if NoDigits(open) && NoDigits(sep) {
      DigitsAppend(a + open + g + sep, b);
      DigitsAppend(a + open + g, sep);
      DigitsAppend(a + open, g);
      DigitsAppend(a, open);
      DigitsOfNoDigits(open);
      DigitsOfNoDigits(sep);
    }
  }

  /** `/(-\d{keep})\d+?$/` matches at index `i`: a dash, `keep` digits, then at
      least one more digit and only digits up to the end of the string. */
  predicate DashTailAt(s: string, i: nat, keep: nat) {
    i + 1 + keep < |s| && s[i] == '-' && AllDigits(s[i + 1..])
  }

  function FindDashTail(s: string, keep: nat, from: nat): (r: Option<nat>)
    decreases |s| - from
    ensures r.Some? ==> from <= r.value && DashTailAt(s, r.value, keep)
    ensures r.Some? ==> forall j: nat :: from <= j < r.value ==> !DashTailAt(s, j, keep)
    ensures r.None? ==> forall j: nat :: from <= j ==> !DashTailAt(s, j, keep)
  {
    if from >= |s| then None
    else if DashTailAt(s, from, keep) then Some(from)
    else FindDashTail(s, keep, from + 1)
  }

  /** `s.replace(/(-\d{keep})\d+?$/, '$1')`: digits beyond the `keep` that
      follow the last group's dash are cut off. */
  function TrimDashTail(s: string, keep: nat): (r: string)
    ensures r <= s && AllDigits(s[|r|..])
  {
    match FindDashTail(s, keep, 0)
    case None => s
    case Some(i) =>
      assert s[i + 1 + keep..] == s[i + 1..][keep..];
      s[..i + 1 + keep]
  }

  /** `formatCPF` (src/components/PaymentModal.tsx:34-41). */
  function FormatCpf(value: string): (r: string)
    ensures Digits(r) <= Digits(value)
  {
    var numbers := Digits(value);
    var a := RewriteFirstRun(numbers, 4, 3, "", ".");
    var b := RewriteFirstRun(a, 4, 3, "", ".");
    var c := RewriteFirstRun(b, 4, 3, "", "-");
    RewriteKeepsDigits(numbers, 4, 3, "", ".");
    RewriteKeepsDigits(a, 4, 3, "", ".");
    RewriteKeepsDigits(b, 4, 3, "", "-");
    DigitsOfDigits(numbers);
    DigitsOfPrefix(TrimDashTail(c, 2), c);
    TrimDashTail(c, 2)
  }

  /** `formatPhone` (src/components/PaymentModal.tsx:43-49). */
  function FormatPhone(value: string): (r: string)
    ensures Digits(r) <= Digits(value)
  {
    var numbers := Digits(value);
    var a := RewriteFirstRun(numbers, 3, 2, "(", ") ");
    var b := RewriteFirstRun(a, 6, 5, "", "-");
    RewriteKeepsDigits(numbers, 3, 2, "(", ") ");
    RewriteKeepsDigits(a, 6, 5, "", "-");
    DigitsOfDigits(numbers);
    DigitsOfPrefix(TrimDashTail(b, 4), b);
    TrimDashTail(b, 4)
  }

  /** The digits of a prefix are a prefix of the digits. */
  lemma DigitsOfPrefix(r: string, s: string)
    requires r <= s
    ensures Digits(r) <= Digits(s)
  {
    assert s == r + s[|r|..];
    DigitsAppend(r, s[|r|..]);
  }

  // ---------------------------------------------------------------------------
  // The reference: digits poured into a mask
  // ---------------------------------------------------------------------------

  /** `###.###.###-##`: the placeholder of the CPF field (line 156) with `#`
      for each digit, written group by group. */
  const CpfMask: string := "###" + ("." + CpfMaskTail)

  /** `(##) #####-####`: the placeholder of the phone field (line 168) with
      `#` for each digit, written group by group. */
  const PhoneMask: string := "(" + ("##" + (")" + (" " + ("#####" + ("-" + "####")))))

  /** The digits of `d` fill the `#` slots of `mask` in order; a literal
      character of the mask is written only while digits remain, and digits
      beyond the last slot are dropped. */
  function Fill(mask: string, d: string): string
    decreases |mask|
  {
    if d == [] || mask == [] then []
    else if mask[0] == '#' then [d[0]] + Fill(mask[1..], d[1..])
    else [mask[0]] + Fill(mask[1..], d)
  }

  /** Number of digit slots in a mask. */
  function Slots(mask: string): nat {
    if mask == [] then 0
    else (if mask[0] == '#' then 1 else 0) + Slots(mask[1..])
  }

  predicate AllSlots(h: string) {
    forall i :: 0 <= i < |h| ==> h[i] == '#'
  }

  /** A mask whose last character is a slot never leaves a dangling separator. */
  predicate EndsInSlot(mask: string) {
    mask == [] || mask[|mask| - 1] == '#'
  }

  /** `r` is a prefix of the pattern `mask`: a digit where the mask has a slot,
      the mask's own character elsewhere. */
  predicate FitsMask(r: string, mask: string) {
    |r| <= |mask| &&
    forall i :: 0 <= i < |r| ==> if mask[i] == '#' then IsDigit(r[i]) else r[i] == mask[i]
  }

  /** `r` is empty or ends with a digit: a separator appears only when a digit
      follows it. */
  predicate EndsInDigit(r: string) {
    r == [] || IsDigit(r[|r| - 1])
  }

  /** The phone mask keeps one or two digits bare (no parenthesis is opened
      before a third digit exists); from three digits on it is the mask. */
  function PhoneReference(d: string): string {
    if |d| <= 2 then d else Fill(PhoneMask, d)
  }

  // ---------------------------------------------------------------------------
  // General facts about Fill
  // ---------------------------------------------------------------------------

  /** A block of slots consumes that many digits at once. */
  lemma {:induction false} FillSlotBlock(h: string, t: string, d: string)
    requires AllSlots(h)
    ensures Fill(h + t, d) == if |d| <= |h| then d else d[..|h|] + Fill(t, d[|h|..])
  {
    if h == [] {
      assert h + t == t;
    } else if d == [] {
    } else {
      var h1, d1 := h[1..], d[1..];
      assert Fill(h + t, d) == [d[0]] + Fill(h1 + t, d1) by {
        assert (h + t)[0] == '#';
        assert (h + t)[1..] == h1 + t;
      }
      FillSlotBlock(h1, t, d1);
      if |d| <= |h| {
        assert [d[0]] + d1 == d;
      } else {
        assert d1[..|h| - 1] == d[1..|h|] && d1[|h| - 1..] == d[|h|..];
        assert [d[0]] + (d[1..|h|] + Fill(t, d[|h|..])) == d[..|h|] + Fill(t, d[|h|..]);
      }
    }
  }

  /** A literal character is written only when a digit follows it. */
  lemma FillLiteral(c: char, t: string, d: string)
    requires c != '#'
    ensures Fill([c] + t, d) == if d == [] then [] else [c] + Fill(t, d)
  {
    assert ([c] + t)[1..] == t;
  }

  /** The output of Fill is a prefix of its mask and ends with a digit. */
  lemma {:induction false} FillShape(mask: string, d: string)
    requires AllDigits(d) && EndsInSlot(mask)
    ensures FitsMask(Fill(mask, d), mask)
    ensures EndsInDigit(Fill(mask, d))
  {
    if d != [] && mask != [] {
      var rest := Fill(mask[1..], if mask[0] == '#' then d[1..] else d);
      FillShape(mask[1..], if mask[0] == '#' then d[1..] else d);
      var r := Fill(mask, d);
      assert r[1..] == rest;
      assert forall i :: 1 <= i < |r| ==> r[i] == rest[i - 1] && mask[i] == mask[1..][i - 1];
      if mask[0] != '#' {
        assert mask[1..] != [];
      }
    }
  }

  /** Fill keeps the first `Slots(mask)` digits and nothing else. */
  lemma {:induction false} FillDigits(mask: string, d: string)
    requires AllDigits(d) && NoDigits(mask)
    ensures Digits(Fill(mask, d)) == Take(d, Slots(mask))
  {
    if mask == [] || d == [] {
    } else if mask[0] == '#' {
      var rest := Fill(mask[1..], d[1..]);
      assert Fill(mask, d) == [d[0]] + rest;
      FillDigits(mask[1..], d[1..]);
      DigitsAppend([d[0]], rest);
      assert Digits([d[0]]) == [d[0]];
      assert Slots(mask) == 1 + Slots(mask[1..]);
      assert [d[0]] + Take(d[1..], Slots(mask[1..])) == Take(d, Slots(mask));
    } else {
      var rest := Fill(mask[1..], d);
      assert Fill(mask, d) == [mask[0]] + rest;
      FillDigits(mask[1..], d);
      DigitsAppend([mask[0]], rest);
      DigitsOfNoDigits([mask[0]]);
    }
  }

  /** Digits beyond the last slot do not change the output. */
  lemma {:induction false} FillIgnoresOverflow(mask: string, d: string)
    requires EndsInSlot(mask)
    ensures Fill(mask, Take(d, Slots(mask))) == Fill(mask, d)
  {
    if mask == [] || d == [] {
    } else if mask[0] == '#' {
      FillIgnoresOverflow(mask[1..], d[1..]);
      var k := Slots(mask);
      assert Take(d, k)[1..] == Take(d[1..], k - 1);
    } else {
      FillIgnoresOverflow(mask[1..], d);
      assert |mask| >= 2;
      SlotsOfLast(mask[1..]);
    }
  }

  lemma {:induction false} SlotsOfLast(mask: string)
    requires mask != [] && mask[|mask| - 1] == '#'
    ensures Slots(mask) >= 1
  {
    if mask[0] != '#' {
      SlotsOfLast(mask[1..]);
    }
  }

  /** With a digit for every slot, the whole mask is written. */
  lemma {:induction false} FillComplete(mask: string, d: string)
    requires EndsInSlot(mask) && |d| >= Slots(mask)
    ensures |Fill(mask, d)| == |mask|
  {
    if mask != [] {
      if d == [] {
        SlotsOfLast(mask);
      } else if mask[0] == '#' {
        FillComplete(mask[1..], d[1..]);
      } else {
        FillComplete(mask[1..], d);
      }
    }
  }

  // ---------------------------------------------------------------------------
  // How the regex steps act on "settled prefix + digits"
  // ---------------------------------------------------------------------------

  /** No run of `len` digits anywhere in `p`, and `p` does not end in a digit,
      so no match can start inside `p` even when digits follow it. */
  ghost predicate Settled(p: string, len: nat) {
    (forall j: nat :: !RunAt(p, j, len)) && EndsInNonDigit(p)
  }

  predicate EndsInNonDigit(p: string) {
    p == [] || !IsDigit(p[|p| - 1])
  }

  predicate DashFree(s: string) {
    forall i :: 0 <= i < |s| ==> s[i] != '-'
  }

  lemma NoRunBefore(p: string, q: string, len: nat, j: nat)
    requires Settled(p, len) && j < |p|
    ensures !RunAt(p + q, j, len)
  {
    var s := p + q;
    if j + len <= |p| {
      assert !RunAt(p, j, len);
      var k :| j <= k < j + len && !IsDigit(p[k]);
      assert s[k] == p[k];
    } else {
      assert s[|p| - 1] == p[|p| - 1];
    }
  }

  /** A settled prefix followed by digits: the leftmost match is where the
      digits start, provided there are enough of them. */
  lemma FirstRunAfterSettled(p: string, q: string, len: nat)
    requires 1 <= len && Settled(p, len) && AllDigits(q)
    ensures FindRun(p + q, len, 0) == if |q| >= len then Some(|p|) else None
  {
    var s := p + q;
    forall j: nat | j < |p|
      ensures !RunAt(s, j, len)
    {
      NoRunBefore(p, q, len, j);
    }
    if |q| >= len {
      assert RunAt(s, |p|, len);
    } else {
      forall j: nat ensures !RunAt(s, j, len) {
        if j >= |p| {
          assert j + len > |s|;
        }
      }
    }
  }

  /** No match: a settled prefix followed by too few digits is left alone. */
  lemma RewriteSettledShort(p: string, q: string, len: nat, split: nat, open: string, sep: string)
    requires split <= len && 1 <= len && Settled(p, len) && AllDigits(q) && |q| < len
    ensures RewriteFirstRun(p + q, len, split, open, sep) == p + q
  {
    FirstRunAfterSettled(p, q, len);
  }

  /** The rewrite acts where the digits start, and the new prefix it leaves
      behind is settled too. */
  lemma RewriteSettledMatch(p: string, q: string, len: nat, split: nat, open: string, sep: string)
    requires 1 <= split < len && Settled(p, len) && AllDigits(q) && |q| >= len
    requires NoDigits(open) && NoDigits(sep) && |sep| >= 1
    ensures RewriteFirstRun(p + q, len, split, open, sep) == (p + open + q[..split] + sep) + q[split..]
    ensures Settled(p + open + q[..split] + sep, len)
  {
    RewriteAtSettled(p, q, len, split, open, sep);
    SettledAfterRewrite(p, q[..split], len, open, sep);
  }

  lemma RewriteAtSettled(p: string, q: string, len: nat, split: nat, open: string, sep: string)
    requires 1 <= split < len && Settled(p, len) && AllDigits(q) && |q| >= len
    ensures RewriteFirstRun(p + q, len, split, open, sep) == (p + open + q[..split] + sep) + q[split..]
  {
    FirstRunAfterSettled(p, q, len);
    var s := p + q;
    assert s[..|p|] == p;
    assert s[|p|..|p| + split] == q[..split];
    assert s[|p| + split..] == q[split..];
  }

  /** A settled prefix, a separator-free opener, fewer than `len` digits and a
      non-empty digit-free separator form a settled prefix again. */
  lemma SettledAfterRewrite(p: string, g: string, len: nat, open: string, sep: string)
    requires Settled(p, len) && |g| < len
    requires NoDigits(open) && NoDigits(sep) && |sep| >= 1
    ensures Settled(p + open + g + sep, len)
  {
    var x := p + open + g + sep;
    forall j: nat ensures !RunAt(x, j, len) {
      if j + len > |x| {
      } else if j + len <= |p| {
        assert !RunAt(p, j, len);
        var k :| j <= k < j + len && !IsDigit(p[k]);
        assert x[k] == p[k];
      } else if j < |p| {
        assert x[|p| - 1] == p[|p| - 1];
      } else if j < |p| + |open| {
        assert x[j] == open[j - |p|];
      } else {
        var k := j + len - 1;
        assert x[k] == sep[k - |p| - |open| - |g|];
      }
    }
    assert x[|x| - 1] == sep[|sep| - 1];
  }

  /** Widening the pattern keeps a prefix settled. */
  lemma SettledWider(p: string, len: nat, wider: nat)
    requires Settled(p, len) && len <= wider
    ensures Settled(p, wider)
  {
    forall j: nat ensures !RunAt(p, j, wider) {
      if j + wider <= |p| {
        assert !RunAt(p, j, len);
        var k :| j <= k < j + len && !IsDigit(p[k]);
      }
    }
  }

  /** The trim step on "prefix ending in a dash + digits". */
  lemma TrimAfterDash(p: string, q: string, keep: nat)
    requires |p| >= 1 && p[|p| - 1] == '-' && AllDigits(q)
    ensures TrimDashTail(p + q, keep) == p + Take(q, keep)
  {
    var s := p + q;
    forall j: nat | j < |p| - 1
      ensures !DashTailAt(s, j, keep)
    {
      assert s[j + 1..][|p| - 1 - (j + 1)] == '-';
    }
    forall j: nat | j >= |p|
      ensures !DashTailAt(s, j, keep)
    {
      if j < |s| {
        assert s[j] == q[j - |p|];
      }
    }
    assert s[|p|..] == q;
    if |q| > keep {
      assert DashTailAt(s, |p| - 1, keep);
      assert s[..|p| + keep] == p + q[..keep];
    } else {
      assert !DashTailAt(s, |p| - 1, keep);
    }
  }

  /** The trim step leaves a string without a dash unchanged. */
  lemma TrimWithoutDash(s: string, keep: nat)
    requires DashFree(s)
    ensures TrimDashTail(s, keep) == s
  {
  }

  lemma DigitsDashFree(q: string)
    requires AllDigits(q)
    ensures DashFree(q)
  {
  }

  /** Concatenation regrouped to the right. */
  lemma Regroup(a: string, b: string, c: string, d: string, e: string)
    ensures a + b + c + d + e == a + (b + (c + (d + e)))
  {
  }

  lemma DashFreeAppend(a: string, b: string)
    requires DashFree(a) && DashFree(b)
    ensures DashFree(a + b)
  {
    forall i | 0 <= i < |a + b| ensures (a + b)[i] != '-' {
      if i >= |a| {
        assert (a + b)[i] == b[i - |a|];
      }
    }
  }

  // ---------------------------------------------------------------------------
  // The CPF mask
  // ---------------------------------------------------------------------------

  /** One `(\d{3})(\d)` step of `formatCPF` on "settled prefix + digits". */
  lemma CpfGroup(p: string, q: string, sep: string)
    requires Settled(p, 4) && AllDigits(q) && NoDigits(sep) && |sep| == 1
    ensures |q| < 4 ==> RewriteFirstRun(p + q, 4, 3, "", sep) == p + q
    ensures |q| >= 4 ==> RewriteFirstRun(p + q, 4, 3, "", sep) == (p + q[..3] + sep) + q[3..]
    ensures |q| >= 4 ==> Settled(p + q[..3] + sep, 4)
  {
    assert p + "" == p;
    if |q| < 4 {
      RewriteSettledShort(p, q, 4, 3, "", sep);
    } else {
      RewriteSettledMatch(p, q, 4, 3, "", sep);
    }
  }

  /** The first dot of `formatCPF`. */
  lemma CpfFirstDot(d: string)
    requires AllDigits(d)
    ensures |d| < 4 ==> RewriteFirstRun(d, 4, 3, "", ".") == d
    ensures |d| >= 4 ==> RewriteFirstRun(d, 4, 3, "", ".") == (d[..3] + ".") + d[3..]
    ensures |d| >= 4 ==> Settled(d[..3] + ".", 4)
  {
    var p: string := [];
    assert p + d == d;
    if |d| >= 4 {
      assert p + d[..3] + "." == d[..3] + ".";
    }
    CpfGroup(p, d, ".");
  }

  /** With three digits or fewer, `formatCPF` writes them bare. */
  lemma CpfChainShort(d: string)
    requires AllDigits(d) && |d| <= 3
    ensures FormatCpf(d) == d
  {
    DigitsOfDigits(d);
    CpfFirstDot(d);
    var p: string := [];
    assert p + d == d;
    CpfGroup(p, d, ".");
    CpfGroup(p, d, "-");
    DigitsDashFree(d);
    TrimWithoutDash(d, 2);
  }

  /** With four to six digits, `formatCPF` writes one dot. */
  lemma CpfChainOneDot(d: string)
    requires AllDigits(d) && 4 <= |d| <= 6
    ensures FormatCpf(d) == d[..3] + ("." + d[3..])
  {
    DigitsOfDigits(d);
    CpfFirstDot(d);
    var p1 := d[..3] + ".";
    var q1 := d[3..];
    CpfGroup(p1, q1, ".");
    CpfGroup(p1, q1, "-");
    DigitsDashFree(d[..3]);
    DigitsDashFree(q1);
    DashFreeAppend(d[..3], ".");
    DashFreeAppend(p1, q1);
    TrimWithoutDash(p1 + q1, 2);
  }

  /** With seven to nine digits, `formatCPF` writes two dots and no dash. */
  lemma CpfChainTwoDots(d: string)
    requires AllDigits(d) && 7 <= |d| <= 9
    ensures FormatCpf(d) == d[..3] + ("." + (d[3..6] + ("." + d[6..])))
  {
    DigitsOfDigits(d);
    CpfFirstDot(d);
    var p1 := d[..3] + ".";
    var q1 := d[3..];
    CpfGroup(p1, q1, ".");
    var p2 := p1 + q1[..3] + ".";
    var q2 := q1[3..];
    assert q1[..3] == d[3..6] && q2 == d[6..];
    CpfGroup(p2, q2, "-");
    DigitsDashFree(d[..3]);
    DigitsDashFree(d[3..6]);
    DigitsDashFree(q2);
    DashFreeAppend(d[..3], ".");
    DashFreeAppend(p1, d[3..6]);
    DashFreeAppend(p1 + d[3..6], ".");
    DashFreeAppend(p2, q2);
    TrimWithoutDash(p2 + q2, 2);
    Regroup(d[..3], ".", d[3..6], ".", d[6..]);
  }

  /** With ten digits or more, `formatCPF` writes both dots and the dash and
      keeps at most two digits after the dash. */
  lemma CpfChainFull(d: string)
    requires AllDigits(d) && 10 <= |d|
    ensures FormatCpf(d) == d[..3] + ("." + (d[3..6] + ("." + (d[6..9] + ("-" + Take(d[9..], 2))))))
  {
    var p3 := d[..3] + "." + d[3..6] + "." + d[6..9] + "-";
    var c := RewriteFirstRun(RewriteFirstRun(RewriteFirstRun(d, 4, 3, "", "."), 4, 3, "", "."), 4, 3, "", "-");
    assert c == p3 + d[9..] by { CpfRewrites(d); }
    assert FormatCpf(d) == TrimDashTail(c, 2) by { DigitsOfDigits(d); }
    TrimAfterDash(p3, d[9..], 2);
    Regroup7(d[..3], ".", d[3..6], ".", d[6..9], "-", Take(d[9..], 2));
  }

  /** The three rewrites of the CPF mask on ten or more digits. */
  lemma CpfRewrites(d: string)
    requires AllDigits(d) && 10 <= |d|
    ensures RewriteFirstRun(RewriteFirstRun(RewriteFirstRun(d, 4, 3, "", "."), 4, 3, "", "."), 4, 3, "", "-")
      == (d[..3] + "." + d[3..6] + "." + d[6..9] + "-") + d[9..]
  {
    var p1 := d[..3] + ".";
    var q1 := d[3..];
    var s1 := RewriteFirstRun(d, 4, 3, "", ".");
    CpfFirstDot(d);
    assert s1 == p1 + q1 && Settled(p1, 4);
    var p2 := p1 + q1[..3] + ".";
    var q2 := q1[3..];
    var s2 := RewriteFirstRun(s1, 4, 3, "", ".");
    CpfGroup(p1, q1, ".");
    assert s2 == p2 + q2 && Settled(p2, 4);
    CpfGroup(p2, q2, "-");
    assert q1[..3] == d[3..6] && q2[..3] == d[6..9] && q2[3..] == d[9..];
  }

  lemma Regroup7(a: string, b: string, c: string, d: string, e: string, f: string, g: string)
    ensures a + b + c + d + e + f + g == a + (b + (c + (d + (e + (f + g)))))
  {
  }

  /** A block of slots followed by a literal: the literal is written only
      when a digit is left for the next block. */
  lemma FillGroup(h: string, c: char, t: string, d: string)
    requires AllSlots(h) && c != '#'
    ensures Fill(h + ([c] + t), d) ==
      if |d| <= |h| then d else d[..|h|] + ([c] + Fill(t, d[|h|..]))
  {
    FillSlotBlock(h, [c] + t, d);
    if |d| > |h| {
      FillLiteral(c, t, d[|h|..]);
    }
  }

  /** The CPF mask after its first group and dot, `###.###-##`. */
  const CpfMaskTail: string := "###" + ("." + CpfMaskEnd)

  /** The CPF mask after its second group and dot, `###-##`. */
  const CpfMaskEnd: string := "###" + ("-" + "##")

  lemma CpfMaskSplit()
    ensures CpfMask == "###" + ("." + CpfMaskTail)
  {
  }

  /** Pouring three digits or fewer into a group of three slots: no separator. */
  lemma CpfFillShortGroup(mask: string, c: char, t: string, e: string)
    requires c != '#' && mask == "###" + ([c] + t) && |e| <= 3
    ensures Fill(mask, e) == e
  {
    FillGroup("###", c, t, e);
  }

  /** Pouring into `###-##` with a digit left for the dash. */
  lemma CpfFillEnd(e: string)
    requires AllDigits(e) && |e| > 3
    ensures Fill(CpfMaskEnd, e) == e[..3] + ("-" + Take(e[3..], 2))
  {
    var last: string := "##";
    FillGroup("###", '-', last, e);
    assert Fill(last, e[3..]) == Take(e[3..], 2) by {
      assert last == last + "";
      FillSlotBlock(last, "", e[3..]);
    }
  }

  /** Pouring into `###.###-##` with a digit left for the dot. */
  lemma CpfFillTail(e: string)
    requires |e| > 3
    ensures Fill(CpfMaskTail, e) == e[..3] + ("." + Fill(CpfMaskEnd, e[3..]))
  {
    FillGroup("###", '.', CpfMaskEnd, e);
  }

  /** Pouring into the whole CPF mask with a digit left for the first dot. */
  lemma CpfFillHead(d: string)
    requires |d| > 3
    ensures Fill(CpfMask, d) == d[..3] + ("." + Fill(CpfMaskTail, d[3..]))
  {
    FillGroup("###", '.', CpfMaskTail, d);
  }

  /** The CPF mask with three digits or fewer: no separator at all. */
  lemma CpfFillShort(d: string)
    requires |d| <= 3
    ensures Fill(CpfMask, d) == d
  {
    CpfFillShortGroup(CpfMask, '.', CpfMaskTail, d);
  }

  /** The CPF mask with four to six digits: one dot. */
  lemma CpfFillOneDot(d: string)
    requires AllDigits(d) && 4 <= |d| <= 6
    ensures Fill(CpfMask, d) == d[..3] + ("." + d[3..])
  {
    CpfFillHead(d);
    CpfFillShortGroup(CpfMaskTail, '.', CpfMaskEnd, d[3..]);
  }

  /** The CPF mask with seven to nine digits: two dots. */
  lemma CpfFillTwoDots(d: string)
    requires AllDigits(d) && 7 <= |d| <= 9
    ensures Fill(CpfMask, d) == d[..3] + ("." + (d[3..6] + ("." + d[6..])))
  {
    CpfFillHead(d);
    var e1 := d[3..];
    CpfFillTail(e1);
    var e2 := e1[3..];
    assert e1[..3] == d[3..6] && e2 == d[6..];
    CpfFillShortGroup(CpfMaskEnd, '-', "##", e2);
  }

  /** The CPF mask with ten digits or more: both dots and the dash. */
  lemma CpfFillFull(d: string)
    requires AllDigits(d) && 10 <= |d|
    ensures Fill(CpfMask, d) == d[..3] + ("." + (d[3..6] + ("." + (d[6..9] + ("-" + Take(d[9..], 2))))))
  {
    var e1 := d[3..];
    var e2 := e1[3..];
    assert e1[..3] == d[3..6] && e2 == d[6..];
    assert e2[..3] == d[6..9] && e2[3..] == d[9..];
    assert AllDigits(e2);
    CpfFillEnd(e2);
    var x := Fill(CpfMaskEnd, e2);
    assert x == d[6..9] + ("-" + Take(d[9..], 2));
    CpfFillTail(e1);
    var y := Fill(CpfMaskTail, e1);
    assert y == d[3..6] + ("." + x);
    CpfFillHead(d);
  }

  /** `formatCPF` is the CPF mask poured with the digits of its input. */
  lemma FormatCpfIsMask(value: string)
    ensures FormatCpf(value) == Fill(CpfMask, Digits(value))
  {
    var d := Digits(value);
    DigitsOfDigits(d);
    assert FormatCpf(value) == FormatCpf(d);
    if |d| <= 3 {
      CpfChainShort(d);
      CpfFillShort(d);
    } else if |d| <= 6 {
      CpfChainOneDot(d);
      CpfFillOneDot(d);
    } else if |d| <= 9 {
      CpfChainTwoDots(d);
      CpfFillTwoDots(d);
    } else {
      CpfChainFull(d);
      CpfFillFull(d);
    }
  }

  lemma CpfMaskFacts()
    ensures NoDigits(CpfMask) && EndsInSlot(CpfMask)
    ensures Slots(CpfMask) == 11 && |CpfMask| == 14
  {
    var last: string := "##";
    var r3 := "-" + last;
    var r1 := "." + CpfMaskEnd;
    var r0 := "." + CpfMaskTail;
    CpfMaskSplit();
    SlotsAppend("-", last);
    SlotsAppend("###", r3);
    SlotsAppend(".", CpfMaskEnd);
    SlotsAppend("###", r1);
    SlotsAppend(".", CpfMaskTail);
    SlotsAppend("###", r0);
  }

  lemma {:induction false} SlotsAppend(a: string, b: string)
    ensures Slots(a + b) == Slots(a) + Slots(b)
  {
    if a == [] {
      assert a + b == b;
    } else {
      assert (a + b)[1..] == a[1..] + b;
      SlotsAppend(a[1..], b);
    }
  }

  /** `formatCPF` keeps exactly the first min(n, 11) digits in order, writes a
      prefix of `###.###.###-##` with a separator only before a digit, stays
      within the field's `maxLength` of 14 and is complete with 11 digits. */
  lemma FormatCpfShape(value: string)
    ensures Digits(FormatCpf(value)) == Take(Digits(value), 11)
    ensures FitsMask(FormatCpf(value), CpfMask) && EndsInDigit(FormatCpf(value))
    ensures |FormatCpf(value)| <= 14
    ensures |Digits(value)| >= 11 <==> |FormatCpf(value)| == 14
  {
    var d := Digits(value);
    FormatCpfIsMask(value);
    CpfMaskFacts();
    FillDigits(CpfMask, d);
    FillShape(CpfMask, d);
    if |d| >= 11 {
      FillComplete(CpfMask, d);
    } else {
      assert |Digits(FormatCpf(value))| == |d|;
      assert |FormatCpf(value)| < 14 by {
        if |FormatCpf(value)| == 14 {
          FullMaskHasAllDigits(FormatCpf(value));
        }
      }
    }
  }

  lemma FullMaskHasAllDigits(r: string)
    requires FitsMask(r, CpfMask) && |r| == 14
    ensures |Digits(r)| == 11
  {
    assert r == r[..3] + [r[3]] + r[4..7] + [r[7]] + r[8..11] + [r[11]] + r[12..];
    DigitsAppend(r[..3] + [r[3]] + r[4..7] + [r[7]] + r[8..11] + [r[11]], r[12..]);
    DigitsAppend(r[..3] + [r[3]] + r[4..7] + [r[7]] + r[8..11], [r[11]]);
    DigitsAppend(r[..3] + [r[3]] + r[4..7] + [r[7]], r[8..11]);
    DigitsAppend(r[..3] + [r[3]] + r[4..7], [r[7]]);
    DigitsAppend(r[..3] + [r[3]], r[4..7]);
    DigitsAppend(r[..3], [r[3]]);
    DigitsOfDigits(r[..3]);
    DigitsOfDigits(r[4..7]);
    DigitsOfDigits(r[8..11]);
    DigitsOfDigits(r[12..]);
    DigitsOfNoDigits([r[3]]);
    DigitsOfNoDigits([r[7]]);
    DigitsOfNoDigits([r[11]]);
  }

  /** Re-formatting the displayed CPF leaves it unchanged; this is what the
      field's `onChange` does with every keystroke. */
  lemma FormatCpfIdempotent(value: string)
    ensures FormatCpf(FormatCpf(value)) == FormatCpf(value)
  {
    var d := Digits(value);
    FormatCpfIsMask(value);
    FormatCpfIsMask(FormatCpf(value));
    CpfMaskFacts();
    FillDigits(CpfMask, d);
    FillIgnoresOverflow(CpfMask, d);
  }


  // ---------------------------------------------------------------------------
  // The phone mask
  // ---------------------------------------------------------------------------

  /** With one or two digits, `formatPhone` writes them bare. */
  lemma PhoneChainShort(d: string)
    requires AllDigits(d) && |d| <= 2
    ensures FormatPhone(d) == d
  {
    DigitsOfDigits(d);
    var p: string := [];
    assert p + d == d;
    RewriteSettledShort(p, d, 3, 2, "(", ") ");
    RewriteSettledShort(p, d, 6, 5, "", "-");
    DigitsDashFree(d);
    TrimWithoutDash(d, 4);
  }

  /** The area code of `formatPhone`: `(\d{2})(\d)` to `($1) $2`. */
  lemma PhoneAreaCode(d: string)
    requires AllDigits(d) && |d| >= 3
    ensures RewriteFirstRun(d, 3, 2, "(", ") ") == ("(" + d[..2] + ") ") + d[2..]
    ensures Settled("(" + d[..2] + ") ", 6)
  {
    var p: string := [];
    assert p + d == d;
    RewriteSettledMatch(p, d, 3, 2, "(", ") ");
    assert p + "(" + d[..2] + ") " == "(" + d[..2] + ") ";
    SettledWider("(" + d[..2] + ") ", 3, 6);
  }

  /** With three to seven digits, `formatPhone` writes the area code and no dash. */
  lemma PhoneChainNoDash(d: string)
    requires AllDigits(d) && 3 <= |d| <= 7
    ensures FormatPhone(d) == "(" + d[..2] + ") " + d[2..]
  {
    DigitsOfDigits(d);
    PhoneAreaCode(d);
    var p1 := "(" + d[..2] + ") ";
    var q1 := d[2..];
    RewriteSettledShort(p1, q1, 6, 5, "", "-");
    DigitsDashFree(d[..2]);
    DigitsDashFree(q1);
    DashFreeAppend("(", d[..2]);
    DashFreeAppend("(" + d[..2], ") ");
    DashFreeAppend(p1, q1);
    TrimWithoutDash(p1 + q1, 4);
  }

  /** With eight digits or more, `formatPhone` writes the dash after five
      digits and keeps at most four digits after it. */
  lemma PhoneChainFull(d: string)
    requires AllDigits(d) && 8 <= |d|
    ensures FormatPhone(d) == "(" + d[..2] + ") " + d[2..7] + "-" + Take(d[7..], 4)
  {
    DigitsOfDigits(d);
    PhoneAreaCode(d);
    var p1 := "(" + d[..2] + ") ";
    var q1 := d[2..];
    RewriteSettledMatch(p1, q1, 6, 5, "", "-");
    assert p1 + "" == p1;
    var p2 := p1 + q1[..5] + "-";
    var q2 := q1[5..];
    assert q1[..5] == d[2..7] && q2 == d[7..];
    TrimAfterDash(p2, q2, 4);
  }

  /** The tail of the phone mask after the area code: `#####-####`. */
  const PhoneMaskTail: string := "#####" + ("-" + "####")

  /** The phone reference writes the parenthesised area code first. */
  lemma PhoneFillHead(d: string)
    requires AllDigits(d) && |d| >= 3
    ensures PhoneReference(d) == "(" + (d[..2] + (")" + (" " + Fill(PhoneMaskTail, d[2..]))))
  {
    var r1 := " " + PhoneMaskTail;
    var r0 := "##" + (")" + r1);
    assert PhoneMask == "(" + r0;
    FillLiteral('(', r0, d);
    FillGroup("##", ')', r1, d);
    FillLiteral(' ', PhoneMaskTail, d[2..]);
  }

  /** With three to seven digits the phone reference has no dash. */
  lemma PhoneFillNoDash(d: string)
    requires AllDigits(d) && 3 <= |d| <= 7
    ensures PhoneReference(d) == "(" + d[..2] + ") " + d[2..]
  {
    PhoneFillHead(d);
    FillGroup("#####", '-', "####", d[2..]);
    assert "(" + (d[..2] + (")" + (" " + d[2..]))) == "(" + d[..2] + ") " + d[2..];
  }

  /** Five or more digits fill the mask's tail up to the dash and at most
      four digits after it. */
  lemma PhoneFillTail(e: string)
    requires AllDigits(e) && 6 <= |e|
    ensures Fill(PhoneMaskTail, e) == e[..5] + ("-" + Take(e[5..], 4))
  {
    var last: string := "####";
    FillGroup("#####", '-', last, e);
    assert Fill(last, e[5..]) == Take(e[5..], 4) by {
      assert last == last + "";
      FillSlotBlock(last, "", e[5..]);
    }
  }

  /** With eight digits or more the phone reference has the dash after five
      digits and at most four digits after it. */
  lemma PhoneFillFull(d: string)
    requires AllDigits(d) && 8 <= |d|
    ensures PhoneReference(d) == "(" + d[..2] + ") " + d[2..7] + "-" + Take(d[7..], 4)
  {
    PhoneFillHead(d);
    var e := d[2..];
    assert AllDigits(e);
    PhoneFillTail(e);
    assert e[..5] == d[2..7] && e[5..] == d[7..];
    var t := Take(d[7..], 4);
    var tail := d[2..7] + ("-" + t);
    assert ")" + (" " + tail) == ") " + tail;
    Regroup("(", d[..2], ") ", d[2..7], "-" + t);
    assert "(" + d[..2] + ") " + d[2..7] + "-" + t == "(" + d[..2] + ") " + d[2..7] + ("-" + t);
  }

  /** `formatPhone` is the phone reference applied to the digits of its input. */
  lemma FormatPhoneIsMask(value: string)
    ensures FormatPhone(value) == PhoneReference(Digits(value))
  {
    var d := Digits(value);
    DigitsOfDigits(d);
    assert FormatPhone(value) == FormatPhone(d);
    if |d| <= 2 {
      PhoneChainShort(d);
    } else if |d| <= 7 {
      PhoneChainNoDash(d);
      PhoneFillNoDash(d);
    } else {
      PhoneChainFull(d);
      PhoneFillFull(d);
    }
  }

  lemma PhoneMaskFacts()
    ensures NoDigits(PhoneMask) && EndsInSlot(PhoneMask)
    ensures Slots(PhoneMask) == 11 && |PhoneMask| == 15
  {
    var last: string := "####";
    var r3 := "-" + last;
    var r2 := "#####" + r3;
    var r1 := " " + r2;
    var r0 := ")" + r1;
    var rb := "##" + r0;
    SlotsAppend("-", last);
    SlotsAppend("#####", r3);
    SlotsAppend(" ", r2);
    SlotsAppend(")", r1);
    SlotsAppend("##", r0);
    SlotsAppend("(", rb);
  }

  /** `formatPhone` keeps exactly the first min(n, 11) digits, leaves one or
      two digits bare, otherwise writes a prefix of `(##) #####-####` with a
      separator only before a digit, and stays within the field's `maxLength`
      of 15. Ten digits give `(dd) ddddd-ddd`: the mask is not re-grouped
      for landlines. */
  lemma FormatPhoneShape(value: string)
    ensures Digits(FormatPhone(value)) == Take(Digits(value), 11)
    ensures |Digits(value)| <= 2 ==> FormatPhone(value) == Digits(value)
    ensures |Digits(value)| >= 3 ==>
      FitsMask(FormatPhone(value), PhoneMask) && EndsInDigit(FormatPhone(value))
    ensures |FormatPhone(value)| <= 15
    ensures |Digits(value)| == 10 ==>
      var d := Digits(value);
      FormatPhone(value) == "(" + d[..2] + ") " + d[2..7] + "-" + d[7..]
  {
    FormatPhoneIsMask(value);
    PhoneReferenceShape(Digits(value));
  }

  /** The shape of the phone reference, stated on the digits alone. */
  lemma PhoneReferenceShape(d: string)
    requires AllDigits(d)
    ensures Digits(PhoneReference(d)) == Take(d, 11)
    ensures |d| <= 2 ==> PhoneReference(d) == d
    ensures |d| >= 3 ==> FitsMask(PhoneReference(d), PhoneMask) && EndsInDigit(PhoneReference(d))
    ensures |PhoneReference(d)| <= 15
    ensures |d| == 10 ==> PhoneReference(d) == "(" + d[..2] + ") " + d[2..7] + "-" + d[7..]
  {
    PhoneMaskFacts();
    if |d| <= 2 {
      DigitsOfDigits(d);
    } else {
      FillDigits(PhoneMask, d);
      FillShape(PhoneMask, d);
    }
    if |d| == 10 {
      PhoneFillFull(d);
      assert Take(d[7..], 4) == d[7..];
    }
  }

  /** Re-formatting the displayed phone number leaves it unchanged. */
  lemma FormatPhoneIdempotent(value: string)
    ensures FormatPhone(FormatPhone(value)) == FormatPhone(value)
  {
    var d := Digits(value);
    FormatPhoneIsMask(value);
    FormatPhoneIsMask(FormatPhone(value));
    PhoneMaskFacts();
    if |d| <= 2 {
      DigitsOfDigits(d);
    } else {
      FillDigits(PhoneMask, d);
      FillIgnoresOverflow(PhoneMask, d);
    }
  }
}

=== FILE: payment_session.dfy ===
/** The buyer's purchase dialog (src/components/PaymentModal.tsx): its state,
    the submit validation, the two halves of the asynchronous submit, the
    copy-to-clipboard action, closing, and the form fields' masks.

    Every handler is one atomic step from a `Session` to a `Transition` that
    lists the outside effects it caused (a function invocation, a toast, a
    clipboard write, a timer, the parent's `onClose`). The asynchronous
    `handleSubmit` is split at its `await`: `BeginSubmit` runs up to the
    invocation, `FinishSubmit` runs when the invocation settles. */
module PaymentSession {
  import opened Common
  import opened Text
  import opened Masks

  datatype Step = FormStep | PaymentStep

  datatype FormData = FormData(name: string, email: string, cpf: string, phone: string)

  datatype PaymentData = PaymentData(paymentCode: string, paymentCodeBase64: string, transactionId: string)

  datatype Session = Session(
    step: Step,
    loading: bool,
    copied: bool,
    paymentData: Option<PaymentData>,
    form: FormData)

  const EmptyForm: FormData := FormData("", "", "", "")

  /** The `useState` initial values (lines 18-32). */
  const Initial: Session := Session(FormStep, false, false, None, EmptyForm)

  /** The body sent to `create-pix-payment`; the price is in cents. */
  datatype InvokeBody = InvokeBody(
    amount: int,
    customerName: string,
    customerEmail: string,
    customerCpf: string,
    customerPhone: string)

  datatype Effect =
    | Invoke(body: InvokeBody)
    | ToastError(text: string)
    | ToastSuccess(text: string)
    | WriteClipboard(text: string)
    | StartCopiedTimer(delayMs: nat)
    | NotifyClosed

  datatype Transition = Transition(next: Session, effects: seq<Effect>)

  /** How an invocation settles: the client reports a transport or HTTP error
      (a non-2xx answer from the function lands here too), or it hands over the
      JSON body. An absent `error` field is the empty string. */
  datatype InvokeReply =
    | InvokeError(message: string)
    | InvokeData(success: bool, paymentCode: string, paymentCodeBase64: string, transactionId: string, error: string)

  const MissingFieldsMessage: string := "Preencha todos os campos"
  const InvalidCpfMessage: string := "CPF inválido"
  const FallbackErrorMessage: string := "Erro ao gerar pagamento"
  const GeneratedMessage: string := "Pagamento PIX gerado!"
  const CopiedMessage: string := "Código PIX copiado!"
  const CopiedRevertMs: nat := 3000

  function CountInvokes(effects: seq<Effect>): nat {
    if effects == [] then 0
    else (if effects[0].Invoke? then 1 else 0) + CountInvokes(effects[1..])
  }

  lemma {:induction false} NoInvokes(effects: seq<Effect>)
    requires forall i :: 0 <= i < |effects| ==> !effects[i].Invoke?
    ensures CountInvokes(effects) == 0
  {
    if effects != [] {
      NoInvokes(effects[1..]);
    }
  }

  // ---------------------------------------------------------------------------
  // Validation (lines 54-62)
  // ---------------------------------------------------------------------------

  datatype Rejection = MissingFields | InvalidCpf

  /** The two checks of `handleSubmit`, in order: any empty field first, then
      the digit count of the CPF. Phone and e-mail contents are not checked. */
  function Validate(f: FormData): (r: Option<Rejection>)
    ensures r.None? ==>
      f.name != "" && f.email != "" && f.phone != "" && |Digits(f.cpf)| == 11
    ensures r == Some(InvalidCpf) ==>
      f.name != "" && f.email != "" && f.cpf != "" && f.phone != "" && |Digits(f.cpf)| != 11
  {
    if f.name == "" || f.email == "" || f.cpf == "" || f.phone == "" then Some(MissingFields)
    else if |Digits(f.cpf)| != 11 then Some(InvalidCpf)
    else None
  }

  function RejectionMessage(r: Rejection): string {
    match r
    case MissingFields => MissingFieldsMessage
    case InvalidCpf => InvalidCpfMessage
  }

  /** The CPF and phone fields show exactly what their masks make of the
      digits they hold: the invariant the `onChange` handlers maintain. */
  predicate MaskedForm(f: FormData) {
    f.cpf == Fill(CpfMask, Digits(f.cpf)) && f.phone == PhoneReference(Digits(f.phone))
  }

  /** A masked field is one the formatter leaves unchanged, and conversely. */
  lemma MaskedFormIsFixpoint(f: FormData)
    ensures MaskedForm(f) <==> FormatCpf(f.cpf) == f.cpf && FormatPhone(f.phone) == f.phone
  {
    FormatCpfIsMask(f.cpf);
    FormatPhoneIsMask(f.phone);
  }

  /** Whatever is typed, the CPF field ends up masked. */
  lemma TypedCpfMasked(v: string)
    ensures FormatCpf(v) == Fill(CpfMask, Digits(FormatCpf(v)))
  {
    FormatCpfIdempotent(v);
    FormatCpfIsMask(FormatCpf(v));
  }

  /** Whatever is typed, the phone field ends up masked. */
  lemma TypedPhoneMasked(v: string)
    ensures FormatPhone(v) == PhoneReference(Digits(FormatPhone(v)))
  {
    FormatPhoneIdempotent(v);
    FormatPhoneIsMask(FormatPhone(v));
  }

  /** Which forms pass: both directions. An empty field is always the first
      reason given; the CPF must carry exactly 11 digits; the phone and e-mail
      pass with any non-empty content. */
  lemma ValidateAccepts(f: FormData)
    ensures Validate(f) == None <==>
      f.name != "" && f.email != "" && f.phone != "" && |Digits(f.cpf)| == 11
    ensures (f.name == "" || f.email == "" || f.cpf == "" || f.phone == "") <==>
      Validate(f) == Some(MissingFields)
  {
  }

  /** On a masked form, the CPF check passes exactly when the buyer typed at
      least 11 digits into the CPF field. */
  lemma MaskedCpfCheck(raw: string, f: FormData)
    requires f.cpf == FormatCpf(raw) && f.name != "" && f.email != "" && f.phone != ""
    ensures Validate(f) == None <==> |Digits(raw)| >= 11
  {
    FormatCpfShape(raw);
    assert |Digits(raw)| > 0 ==> f.cpf != "";
    if |Digits(raw)| == 0 {
      FormatCpfIsMask(raw);
    }
  }

  /** Phone and e-mail contents are never checked: swapping them for any other
      non-empty text does not change the verdict. */
  lemma PhoneAndEmailUnchecked(f: FormData, email: string, phone: string)
    requires email != "" && phone != "" && f.email != "" && f.phone != ""
    ensures Validate(f.(email := email, phone := phone)) == Validate(f)
  {
  }

  // ---------------------------------------------------------------------------
  // handleSubmit (lines 51-93)
  // ---------------------------------------------------------------------------

  /** `handleSubmit` up to its `await`: a rejected form only raises a toast;
      an accepted one sets `loading` and invokes the function once with the
      displayed field values and the product price. */
  function BeginSubmit(s: Session, price: int): (t: Transition)
    ensures Validate(s.form).Some? ==>
      t.next == s && t.effects == [ToastError(RejectionMessage(Validate(s.form).value))]
    ensures Validate(s.form).None? ==>
      t.next == s.(loading := true) &&
      t.effects == [Invoke(InvokeBody(price, s.form.name, s.form.email, s.form.cpf, s.form.phone))]
  {
    match Validate(s.form)
    case Some(r) => Transition(s, [ToastError(RejectionMessage(r))])
    case None =>
      Transition(
        s.(loading := true),
        [Invoke(InvokeBody(price, s.form.name, s.form.email, s.form.cpf, s.form.phone))])
  }

  /** The message `toast.error(error.message || ...)` shows for a failure. */
  function FailureMessage(message: string): (m: string)
    ensures m != ""
    ensures message != "" ==> m == message
  {
    if message != "" then message else FallbackErrorMessage
  }

  /** `handleSubmit` after its `await`: success only with no client error and
      `data.success`; `finally` clears `loading` on every path. */
  function FinishSubmit(s: Session, reply: InvokeReply): (t: Transition)
    ensures !t.next.loading && t.next.form == s.form && t.next.copied == s.copied
    ensures |t.effects| == 1 && (t.effects[0].ToastSuccess? || t.effects[0].ToastError?)
  {
    match reply
    case InvokeError(message) =>
      Transition(s.(loading := false), [ToastError(FailureMessage(message))])
    case InvokeData(success, code, image, id, error) =>
      if success then
        Transition(
          s.(loading := false, step := PaymentStep, paymentData := Some(PaymentData(code, image, id))),
          [ToastSuccess(GeneratedMessage)])
      else
        Transition(s.(loading := false), [ToastError(FailureMessage(error))])
  }

  predicate Succeeded(reply: InvokeReply) {
    reply.InvokeData? && reply.success
  }

  /** Both outcomes of a settled submit: on success the payment step shows the
      reply's code, image and transaction id; on any failure the step and the
      payment data stay as they were and an error toast names the reason. The
      form and the `copied` flag are never touched, and `loading` is cleared. */
  lemma FinishSubmitOutcomes(s: Session, reply: InvokeReply)
    ensures var t := FinishSubmit(s, reply);
      !t.next.loading && t.next.form == s.form && t.next.copied == s.copied &&
      CountInvokes(t.effects) == 0
    ensures Succeeded(reply) <==> FinishSubmit(s, reply).effects == [ToastSuccess(GeneratedMessage)]
    ensures Succeeded(reply) ==>
      FinishSubmit(s, reply).next.step == PaymentStep &&
      FinishSubmit(s, reply).next.paymentData ==
        Some(PaymentData(reply.paymentCode, reply.paymentCodeBase64, reply.transactionId))
    ensures !Succeeded(reply) ==>
      FinishSubmit(s, reply).next == s.(loading := false) &&
      FinishSubmit(s, reply).effects[0].ToastError?
  {
  }

  // ---------------------------------------------------------------------------
  // copyPixCode, the copied timer and handleClose (lines 95-109)
  // ---------------------------------------------------------------------------

  /** `copyPixCode`: without a non-empty code nothing happens; otherwise the
      code is written to the clipboard and, once that write resolves,
      `copied` is set and a 3000 ms timer is started to clear it. A rejected
      write leaves the state alone. */
  function CopyPixCode(s: Session, clipboardOk: bool): (t: Transition)
    ensures (s.paymentData.None? || s.paymentData.value.paymentCode == "") ==>
      t == Transition(s, [])
    ensures t.next.copied != s.copied ==> t.next.copied && clipboardOk
    ensures t.next == s || t.next == s.(copied := true)
    ensures s.paymentData.Some? && s.paymentData.value.paymentCode != "" ==>
      |t.effects| >= 1 && t.effects[0] == WriteClipboard(s.paymentData.value.paymentCode) &&
      (clipboardOk ==>
        t.next == s.(copied := true) &&
        ToastSuccess(CopiedMessage) in t.effects && StartCopiedTimer(CopiedRevertMs) in t.effects) &&
      (!clipboardOk ==> t.next == s && t.effects == [WriteClipboard(s.paymentData.value.paymentCode)])
  {
    if s.paymentData.Some? && s.paymentData.value.paymentCode != "" then
      var code := s.paymentData.value.paymentCode;
      if clipboardOk then
        Transition(s.(copied := true),
          [WriteClipboard(code), ToastSuccess(CopiedMessage), StartCopiedTimer(CopiedRevertMs)])
      else
        Transition(s, [WriteClipboard(code)])
    else
      Transition(s, [])
  }

  /** The `setTimeout` callback of `copyPixCode`. */
  function CopiedTimerFired(s: Session): (t: Transition)
    ensures !t.next.copied && t.next.(copied := s.copied) == s && t.effects == []
  {
    Transition(s.(copied := false), [])
  }

  /** `handleClose`: back to the form step with the payment data dropped and
      the four fields emptied; `loading` and `copied` are NOT reset. */
  function HandleClose(s: Session): (t: Transition)
    ensures t.next.step == FormStep && t.next.paymentData == None && t.next.form == EmptyForm
    ensures t.next.loading == s.loading && t.next.copied == s.copied
    ensures t.effects == [NotifyClosed]
  {
    Transition(s.(step := FormStep, paymentData := None, form := EmptyForm), [NotifyClosed])
  }

  /** Closing gives back the freshly opened dialog exactly when no submit is
      in flight and the copied indicator has already reverted. */
  lemma CloseRestoresInitial(s: Session)
    ensures HandleClose(s).next == Initial <==> !s.loading && !s.copied
  {
  }

  // ---------------------------------------------------------------------------
  // Events as the rendered dialog delivers them
  // ---------------------------------------------------------------------------

  datatype Event =
    | TypeName(value: string)
    | TypeEmail(value: string)
    | TypeCpf(value: string)
    | TypePhone(value: string)
    | PressSubmit
    | InvokeSettled(reply: InvokeReply)
    | PressCopy(clipboardOk: bool)
    | CopiedTimeout
    | Dismiss

  /** The dialog's session together with the number of invocations still in
      flight. */
  datatype World = World(session: Session, pending: nat)

  datatype Outcome = Outcome(world: World, effects: seq<Effect>)

  /** The submit button is disabled exactly while `loading` (line 178); it is
      the only guard against a second submit. */
  predicate SubmitEnabled(s: Session) {
    s.step == FormStep && !s.loading
  }

  /** One event. The form's inputs and submit button are rendered only on the
      form step, the copy buttons only on the payment step (lines 120-262); a
      disabled button delivers nothing; an invocation can settle only while
      one is in flight. The `onChange` handlers apply the masks to the CPF and
      phone fields (lines 158, 170). */
  function Dispatch(w: World, e: Event, price: int): (o: Outcome)
    ensures e.PressSubmit? && !SubmitEnabled(w.session) ==> o == Outcome(w, [])
  {
    var s := w.session;
    match e
    case TypeName(v) =>
      if s.step == FormStep then Outcome(World(s.(form := s.form.(name := v)), w.pending), []) else Outcome(w, [])
    case TypeEmail(v) =>
      if s.step == FormStep then Outcome(World(s.(form := s.form.(email := v)), w.pending), []) else Outcome(w, [])
    case TypeCpf(v) =>
      if s.step == FormStep then Outcome(World(s.(form := s.form.(cpf := FormatCpf(v))), w.pending), []) else Outcome(w, [])
    case TypePhone(v) =>
      if s.step == FormStep then Outcome(World(s.(form := s.form.(phone := FormatPhone(v))), w.pending), []) else Outcome(w, [])
    case PressSubmit =>
      if SubmitEnabled(s) then
        var t := BeginSubmit(s, price);
        Outcome(World(t.next, w.pending + CountInvokes(t.effects)), t.effects)
      else Outcome(w, [])
    case InvokeSettled(reply) =>
      if w.pending > 0 then
        var t := FinishSubmit(s, reply);
        FinishSubmitOutcomes(s, reply);
        Outcome(World(t.next, w.pending - 1), t.effects)
      else Outcome(w, [])
    case PressCopy(ok) =>
      if s.step == PaymentStep then
        var t := CopyPixCode(s, ok);
        Outcome(World(t.next, w.pending), t.effects)
      else Outcome(w, [])
    case CopiedTimeout =>
      Outcome(World(CopiedTimerFired(s).next, w.pending), [])
    case Dismiss =>
      var t := HandleClose(s);
      Outcome(World(t.next, w.pending), t.effects)
  }

  /** At most one invocation is in flight, and `loading` says whether one is;
      the CPF and phone fields always hold masked text. */
  predicate Healthy(w: World) {
    w.pending == (if w.session.loading then 1 else 0) && MaskedForm(w.session.form)
  }

  lemma EmptyFieldsAreMasked()
    ensures MaskedForm(EmptyForm)
  {
  }

  /** The freshly opened dialog is healthy. */
  lemma InitialHealthy()
    ensures Healthy(World(Initial, 0))
  {
    EmptyFieldsAreMasked();
  }

  /** Every event keeps the dialog healthy. */
  lemma DispatchKeepsHealthy(w: World, e: Event, price: int)
    requires Healthy(w)
    ensures Healthy(Dispatch(w, e, price).world)
  {
    match e
    case TypeCpf(v) =>
      TypedCpfMasked(v);
    case TypePhone(v) =>
      TypedPhoneMasked(v);
    case Dismiss =>
      EmptyFieldsAreMasked();
    case InvokeSettled(reply) =>
      SettleKeepsHealthy(w, reply, price);
    case PressSubmit =>
      SubmitKeepsHealthy(w, price);
    case PressCopy(ok) =>
      var o := Dispatch(w, e, price);
      MaskedFormKept(w.session.form, o.world.session.form);
    case CopiedTimeout =>
      var o := Dispatch(w, e, price);
      MaskedFormKept(w.session.form, o.world.session.form);
    case TypeName(_) =>
      var o := Dispatch(w, e, price);
      MaskedFormKept(w.session.form, o.world.session.form);
    case TypeEmail(_) =>
      var o := Dispatch(w, e, price);
      MaskedFormKept(w.session.form, o.world.session.form);
  }

  /** Pressing submit either changes nothing or sets `loading` together with
      the one invocation it makes. */
  lemma SubmitKeepsHealthy(w: World, price: int)
    requires Healthy(w)
    ensures Healthy(Dispatch(w, PressSubmit, price).world)
  {
    var s := w.session;
    if SubmitEnabled(s) {
      var t := BeginSubmit(s, price);
      assert Dispatch(w, PressSubmit, price).world == World(t.next, w.pending + CountInvokes(t.effects));
      MaskedFormKept(s.form, t.next.form);
    }
  }

  /** A settled invocation clears `loading` together with the count. */
  lemma SettleKeepsHealthy(w: World, reply: InvokeReply, price: int)
    requires Healthy(w)
    ensures Healthy(Dispatch(w, InvokeSettled(reply), price).world)
  {
    var s := w.session;
    if w.pending > 0 {
      var t := FinishSubmit(s, reply);
      FinishSubmitOutcomes(s, reply);
      assert Dispatch(w, InvokeSettled(reply), price).world == World(t.next, w.pending - 1);
      MaskedFormKept(s.form, t.next.form);
    }
  }

  lemma MaskedFormKept(f: FormData, g: FormData)
    requires MaskedForm(f) && g.cpf == f.cpf && g.phone == f.phone
    ensures MaskedForm(g)
  {
  }

  /** Invocations in flight are counted exactly: an event adds one for each
      invocation it makes and removes one when it settles a call. */
  lemma DispatchAccounting(w: World, e: Event, price: int)
    ensures var o := Dispatch(w, e, price);
      o.world.pending + (if e.InvokeSettled? && w.pending > 0 then 1 else 0) ==
      w.pending + CountInvokes(o.effects)
  {
    var o := Dispatch(w, e, price);
    if e.PressSubmit? && SubmitEnabled(w.session) && Validate(w.session.form).None? {
      assert CountInvokes(o.effects[1..]) == 0;
    } else {
      NoInvokes(o.effects);
    }
  }

  /** A run of events, with all the effects it caused, in order. */
  function Run(w: World, events: seq<Event>, price: int): Outcome
    decreases |events|
  {
    if events == [] then Outcome(w, [])
    else
      var first := Dispatch(w, events[0], price);
      var rest := Run(first.world, events[1..], price);
      Outcome(rest.world, first.effects + rest.effects)
  }

  lemma CountInvokesAppend(a: seq<Effect>, b: seq<Effect>)
    ensures CountInvokes(a + b) == CountInvokes(a) + CountInvokes(b)
  {
    if a == [] {
      assert a + b == b;
    } else {
      assert (a + b)[0] == a[0];
      assert (a + b)[1..] == a[1..] + b;
      CountInvokesAppend(a[1..], b);
    }
  }

  function CountSettled(w: World, events: seq<Event>, price: int): nat
    decreases |events|
  {
    if events == [] then 0
    else
      (if events[0].InvokeSettled? && w.pending > 0 then 1 else 0) +
      CountSettled(Dispatch(w, events[0], price).world, events[1..], price)
  }

  /** Over any run from a healthy dialog the dialog stays healthy, so never
      more than one invocation is in flight, and every invocation made is
      either settled within the run or still in flight at its end. */
  lemma {:induction false} RunKeepsHealthy(w: World, events: seq<Event>, price: int)
    requires Healthy(w)
    ensures Healthy(Run(w, events, price).world)
    ensures Run(w, events, price).world.pending <= 1
    ensures w.pending + CountInvokes(Run(w, events, price).effects) ==
      CountSettled(w, events, price) + Run(w, events, price).world.pending
    decreases |events|
  {
    if events != [] {
      var first := Dispatch(w, events[0], price);
      DispatchKeepsHealthy(w, events[0], price);
      DispatchAccounting(w, events[0], price);
      RunKeepsHealthy(first.world, events[1..], price);
      CountInvokesAppend(first.effects, Run(first.world, events[1..], price).effects);
    }
  }

  /** `handleSubmit` itself has no in-flight check: called directly while a
      submit is loading it invokes the function a second time. Only the
      disabled button keeps that from happening. */
  lemma HandleSubmitHasNoGuard(s: Session, price: int)
    requires s.loading && Validate(s.form).None?
    ensures CountInvokes(BeginSubmit(s, price).effects) == 1
    ensures !SubmitEnabled(s)
  {
  }

  /** A submit that settles after the dialog was closed still switches it to
      the payment step, because `handleClose` leaves the pending call alone. */
  lemma LateSuccessAfterClose(s: Session, reply: InvokeReply)
    requires Succeeded(reply)
    ensures FinishSubmit(HandleClose(s).next, reply).next.step == PaymentStep
    ensures FinishSubmit(HandleClose(s).next, reply).next.form == EmptyForm
  {
  }
}

=== FILE: pix_adapter.dfy ===
/** The `create-pix-payment` edge function
    (supabase/functions/create-pix-payment/index.ts): it answers the CORS
    preflight, checks its configuration and the minimum amount, obtains a
    token from the payment gateway, asks the gateway for a PIX charge and
    normalises the answer into the `{ success, ... }` envelope the dialog
    reads.

    The two gateway requests are not performed: their outcomes are
    parameters of `Serve`, which returns the response together with the list
    of requests it issued, in order. The clock is the parameter `now`
    (milliseconds since the epoch); amounts are in cents. */
module PixAdapter {
  import opened Common
  import opened Text

  type Header = (string, string)

  /** The CORS headers of every response (lines 3-6). */
  const CorsHeaders: seq<Header> := [
    ("Access-Control-Allow-Origin", "*"),
    ("Access-Control-Allow-Headers", "authorization, x-client-info, apikey, content-type")
  ]

  /** The headers of every JSON answer (lines 130, 143). */
  const JsonHeaders: seq<Header> := CorsHeaders + [("Content-Type", "application/json")]

  const NotConfiguredMessage: string := "Payment service not configured"
  const MinimumAmountMessage: string := "Valor mínimo é R$ 1,00"
  const AuthFailedMessage: string := "Falha na autenticação com gateway de pagamento"
  const ChargeFailedMessage: string := "Falha ao criar pagamento PIX"
  const UnknownErrorMessage: string := "Erro desconhecido"
  /** What the runtime says when `.replace` is read off `undefined` or
      `null`. */
  const UndefinedFieldMessage: string := "Cannot read properties of undefined (reading 'replace')"
  const NullFieldMessage: string := "Cannot read properties of null (reading 'replace')"

  /** R$ 1,00: `amount < 1` in reais is `amount < 100` in cents. */
  const MinimumAmountCents: int := 100

  const ItemTitle: string := "Acesso VIP - Conteúdo Exclusivo"
  const ClientIp: string := "127.0.0.1"
  const MillisPerDay: nat := 24 * 60 * 60 * 1000

  /** Something thrown inside the handler's `try`. */
  datatype Thrown = ErrorObject(message: string) | NonError

  /** A property of the parsed JSON body: missing (`undefined`), `null`, or
      a value. `JSON.stringify` drops a missing property and writes `null`. */
  datatype Field<+T> = Absent | Null | Given(value: T)

  /** The parsed JSON body. */
  datatype PaymentRequest = PaymentRequest(
    amount: Field<int>,
    customerName: Field<string>,
    customerEmail: Field<string>,
    customerCpf: Field<string>,
    customerPhone: Field<string>)

  /** `req.json()`: either it throws or it yields the request. */
  datatype Body = Unparsable(reason: Thrown) | Parsed(request: PaymentRequest)

  datatype Request = Request(httpMethod: string, body: Body)

  /** `Deno.env.get` of the two credentials. */
  datatype Env = Env(clientId: Option<string>, clientSecret: Option<string>)

  /** A gateway request: it throws (the request fails or its JSON body cannot
      be read), answers with a non-2xx status, or answers with a body. */
  datatype Fetch<T> = Rejected(reason: Thrown) | NotOk(status: int) | Ok(payload: T)

  datatype AuthPayload = AuthPayload(accessToken: Field<string>)

  datatype ChargePayload = ChargePayload(
    paymentCode: Field<string>,
    paymentCodeBase64: Field<string>,
    idTransaction: Field<string>,
    statusTransaction: Field<string>)

  datatype Item = Item(title: string, quantity: int, tangible: bool, unitPrice: Field<int>)

  datatype Address = Address(
    city: string, state: string, street: string, country: string,
    zipCode: string, complement: string, neighborhood: string, streetNumber: string)

  /** The fixed address sent with every charge (lines 90-99). */
  const FixedAddress: Address :=
    Address("São Paulo", "SP", "Rua Principal", "BR", "01000-000", "", "Centro", "1")

  /** `externaRef` keeps the key's spelling as sent (line 89). */
  datatype Customer = Customer(
    cpf: string,
    name: Field<string>,
    email: Field<string>,
    phone: string,
    externaRef: string,
    address: Address)

  datatype Metadata = Metadata(provider: string, sellUrl: string, orderUrl: string, userEmail: Field<string>)

  /** The charge request body (lines 70-108). `expiresOnDay` is the UTC day,
      counted from the epoch, whose ISO date is sent as `pix.expiresInDays`. */
  datatype ChargeBody = ChargeBody(
    ip: string,
    expiresOnDay: int,
    items: seq<Item>,
    amount: Field<int>,
    customer: Customer,
    metadata: Metadata,
    traceable: bool)

  datatype Call =
    | AuthCall(clientId: string, clientSecret: string)
    | ChargeCall(authorization: string, body: ChargeBody)

  datatype ResponseBody =
    | SuccessBody(
        paymentCode: Field<string>,
        paymentCodeBase64: Field<string>,
        transactionId: Field<string>,
        status: Field<string>)
    | FailureBody(error: string)

  /** `body == None` is the preflight's `null` body. */
  datatype Response = Response(status: int, headers: seq<Header>, body: Option<ResponseBody>)

  datatype Outcome = Outcome(response: Response, calls: seq<Call>)

  // ---------------------------------------------------------------------------
  // Pieces of the handler
  // ---------------------------------------------------------------------------

  /** The catch clause's message (line 135). */
  function ThrownMessage(t: Thrown): string {
    match t
    case ErrorObject(m) => m
    case NonError => UnknownErrorMessage
  }

  /** The catch clause's response (lines 137-146). */
  function Failure(message: string, calls: seq<Call>): Outcome {
    Outcome(Response(400, JsonHeaders, Some(FailureBody(message))), calls)
  }

  /** `!clientId || !clientSecret` is false. */
  predicate Configured(env: Env) {
    Present(env.clientId) && Present(env.clientSecret)
  }

  /** `amount < 1` rejects. A missing amount compares as `NaN` and passes; a
      `null` one compares as 0 and is refused. */
  predicate BelowMinimum(amount: Field<int>) {
    match amount
    case Absent => false
    case Null => true
    case Given(v) => v < MinimumAmountCents
  }

  /** The error `.replace` throws when read off a missing or `null` CPF or
      phone (lines 85 and 88); `None` when the property holds a string. */
  function ReplaceError(f: Field<string>): (m: Option<string>)
    ensures m.None? <==> f.Given?
  {
    match f
    case Absent => Some(UndefinedFieldMessage)
    case Null => Some(NullFieldMessage)
    case Given(_) => None
  }

  /** `${value}` of a property that may be `undefined`. */
  function Interpolate(value: Field<string>): string {
    match value
    case Given(v) => v
    case Null => "null"
    case Absent => "undefined"
  }

  function BearerHeader(token: Field<string>): (h: string)
    ensures |h| >= 7 && h[..7] == "Bearer "
    ensures token.Given? ==> h[7..] == token.value
    ensures token == Null ==> h == "Bearer null"
  {
    "Bearer " + Interpolate(token)
  }

  /** The UTC day two days after `now`: the day whose span of milliseconds
      contains `now` plus two days. */
  function ExpiryDay(now: nat): (day: int)
    ensures day * MillisPerDay <= now + 2 * MillisPerDay < (day + 1) * MillisPerDay
  {
    (now + 2 * MillisPerDay) / MillisPerDay
  }

  /** The charge body for a request whose CPF and phone are present. */
  function BuildCharge(p: PaymentRequest, cpf: string, phone: string, now: nat): (b: ChargeBody)
    ensures AllDigits(b.customer.cpf) && |b.customer.cpf| <= |cpf|
    ensures AllDigits(b.customer.phone) && |b.customer.phone| <= |phone|
    ensures |b.items| == 1 && b.items[0].unitPrice == b.amount == p.amount
    ensures b.expiresOnDay * MillisPerDay <= now + 2 * MillisPerDay < (b.expiresOnDay + 1) * MillisPerDay
  {
    ChargeBody(
      ClientIp,
      ExpiryDay(now),
      [Item(ItemTitle, 1, false, p.amount)],
      p.amount,
      Customer(Digits(cpf), p.customerName, p.customerEmail, Digits(phone),
        "club_" + NatToString(now), FixedAddress),
      Metadata("ClubSystem", "https://club.example.com", "https://club.example.com/order", p.customerEmail),
      true)
  }

  /** The success response (lines 121-133). */
  function Success(c: ChargePayload, calls: seq<Call>): Outcome {
    Outcome(
      Response(200, JsonHeaders,
        Some(SuccessBody(c.paymentCode, c.paymentCodeBase64, c.idTransaction, c.statusTransaction))),
      calls)
  }

  // ---------------------------------------------------------------------------
  // The handler
  // ---------------------------------------------------------------------------

  /** One request, given what each gateway request would yield. */
  function Serve(req: Request, env: Env, auth: Fetch<AuthPayload>, charge: Fetch<ChargePayload>, now: nat): (o: Outcome)
    ensures |o.calls| <= 2
    ensures req.httpMethod != "OPTIONS" ==> o.response.headers == JsonHeaders && o.response.body.Some?
    ensures o.response.status == 200 || o.response.status == 400
  {
    if req.httpMethod == "OPTIONS" then
      Outcome(Response(200, CorsHeaders, None), [])
    else if !Configured(env) then
      Failure(NotConfiguredMessage, [])
    else
      match req.body
      case Unparsable(t) => Failure(ThrownMessage(t), [])
      case Parsed(p) =>
        if BelowMinimum(p.amount) then
          Failure(MinimumAmountMessage, [])
        else
          var first := [AuthCall(env.clientId.value, env.clientSecret.value)];
          match auth
          case Rejected(t) => Failure(ThrownMessage(t), first)
          case NotOk(_) => Failure(AuthFailedMessage, first)
          case Ok(a) =>
            if !p.customerCpf.Given? then
              Failure(ReplaceError(p.customerCpf).value, first)
            else if !p.customerPhone.Given? then
              Failure(ReplaceError(p.customerPhone).value, first)
            else
              var calls := first + [ChargeCall(BearerHeader(a.accessToken),
                                               BuildCharge(p, p.customerCpf.value, p.customerPhone.value, now))];
              match charge
              case Rejected(t) => Failure(ThrownMessage(t), calls)
              case NotOk(_) => Failure(ChargeFailedMessage, calls)
              case Ok(c) => Success(c, calls)
  }

  // ---------------------------------------------------------------------------
  // Properties
  // ---------------------------------------------------------------------------

  /** The preflight is answered with the CORS headers, no body and no gateway
      traffic, whatever else the request holds. */
  lemma PreflightMakesNoCalls(req: Request, env: Env, auth: Fetch<AuthPayload>, charge: Fetch<ChargePayload>, now: nat)
    requires req.httpMethod == "OPTIONS"
    ensures var o := Serve(req, env, auth, charge, now);
      o.calls == [] && o.response.body == None && o.response.headers == CorsHeaders &&
      o.response.status == 200
  {
  }

  /** Missing or empty credentials fail before the body is read: the same
      answer whatever the body is, and no gateway traffic. */
  lemma ConfigurationCheckedFirst(req: Request, env: Env, auth: Fetch<AuthPayload>, charge: Fetch<ChargePayload>, now: nat)
    requires req.httpMethod != "OPTIONS" && !Configured(env)
    ensures Serve(req, env, auth, charge, now) == Failure(NotConfiguredMessage, [])
  {
  }

  /** The gateway is contacted (always token first) exactly when the request
      is not a preflight, the service is configured, the body parses and the
      amount is not below R$ 1,00; an amount of exactly R$ 1,00 passes. */
  lemma AuthCalledIff(req: Request, env: Env, auth: Fetch<AuthPayload>, charge: Fetch<ChargePayload>, now: nat)
    ensures var o := Serve(req, env, auth, charge, now);
      o.calls != [] <==>
        req.httpMethod != "OPTIONS" && Configured(env) && req.body.Parsed? && !BelowMinimum(req.body.request.amount)
    ensures var o := Serve(req, env, auth, charge, now);
      o.calls != [] ==> o.calls[0] == AuthCall(env.clientId.value, env.clientSecret.value)
  {
  }

  /** An amount below the minimum is refused with its own message and no
      gateway traffic. */
  lemma MinimumAmountRefused(req: Request, env: Env, auth: Fetch<AuthPayload>, charge: Fetch<ChargePayload>, now: nat)
    requires req.httpMethod != "OPTIONS" && Configured(env) && req.body.Parsed?
    requires req.body.request.amount.Given? && req.body.request.amount.value < MinimumAmountCents
    ensures Serve(req, env, auth, charge, now) == Failure(MinimumAmountMessage, [])
  {
  }

  /** A `null` amount is refused too: `null < 1` compares 0 with 1. */
  lemma NullAmountRefused(req: Request, env: Env, auth: Fetch<AuthPayload>, charge: Fetch<ChargePayload>, now: nat)
    requires req.httpMethod != "OPTIONS" && Configured(env) && req.body.Parsed?
    requires req.body.request.amount == Null
    ensures Serve(req, env, auth, charge, now) == Failure(MinimumAmountMessage, [])
  {
  }

  /** The charge is requested only after the token request succeeded, and
      exactly when it did and both the CPF and the phone were supplied. */
  lemma ChargeOnlyAfterAuth(req: Request, env: Env, auth: Fetch<AuthPayload>, charge: Fetch<ChargePayload>, now: nat)
    ensures var o := Serve(req, env, auth, charge, now);
      |o.calls| == 2 <==>
        req.httpMethod != "OPTIONS" && Configured(env) && req.body.Parsed? &&
        !BelowMinimum(req.body.request.amount) && auth.Ok? &&
        req.body.request.customerCpf.Given? && req.body.request.customerPhone.Given?
    ensures var o := Serve(req, env, auth, charge, now);
      |o.calls| == 2 ==> o.calls[0].AuthCall? && o.calls[1].ChargeCall?
  {
  }

  /** A missing or `null` CPF or phone throws while the charge body is built,
      after the token request and before the charge request. The CPF is read
      first, so its error wins; the message says `undefined` or `null`. */
  lemma MissingFieldThrows(req: Request, env: Env, auth: Fetch<AuthPayload>, charge: Fetch<ChargePayload>, now: nat)
    requires req.httpMethod != "OPTIONS" && Configured(env) && req.body.Parsed? && !BelowMinimum(req.body.request.amount)
    requires auth.Ok?
    requires !req.body.request.customerCpf.Given? || !req.body.request.customerPhone.Given?
    ensures var p := req.body.request;
      var message := if !p.customerCpf.Given? then ReplaceError(p.customerCpf).value else ReplaceError(p.customerPhone).value;
      Serve(req, env, auth, charge, now) ==
        Failure(message, [AuthCall(env.clientId.value, env.clientSecret.value)])
    ensures var p := req.body.request;
      Serve(req, env, auth, charge, now).response.body.value.error ==
        if p.customerCpf == Null || (p.customerCpf.Given? && p.customerPhone == Null)
        then NullFieldMessage else UndefinedFieldMessage
  {
  }

  /** What the charge request carries: one item of quantity 1 priced at the
      amount, the amount itself, the CPF and phone stripped to their digits,
      name and e-mail as given (the e-mail also in the metadata), a reference
      made from the clock, and an expiry two days ahead. */
  lemma BuildChargeShape(p: PaymentRequest, cpf: string, phone: string, now: nat)
    ensures var b := BuildCharge(p, cpf, phone, now);
      |b.items| == 1 && b.items[0].quantity == 1 && !b.items[0].tangible &&
      b.items[0].unitPrice == p.amount && b.amount == p.amount &&
      b.customer.cpf == Digits(cpf) && b.customer.phone == Digits(phone) &&
      AllDigits(b.customer.cpf) && AllDigits(b.customer.phone) &&
      b.customer.name == p.customerName && b.customer.email == p.customerEmail &&
      b.metadata.userEmail == p.customerEmail &&
      b.customer.externaRef == "club_" + NatToString(now) &&
      b.expiresOnDay * MillisPerDay <= now + 2 * MillisPerDay < (b.expiresOnDay + 1) * MillisPerDay
  {
  }

  /** The charge request issued by `Serve` carries the bearer token from the
      token answer and the body built from the request as above. */
  lemma ChargeBodyShape(req: Request, env: Env, auth: Fetch<AuthPayload>, charge: Fetch<ChargePayload>, now: nat)
    requires |Serve(req, env, auth, charge, now).calls| == 2
    ensures var c := Serve(req, env, auth, charge, now).calls[1];
      var p := req.body.request;
      c.ChargeCall? &&
      c.authorization == "Bearer " + Interpolate(auth.payload.accessToken) &&
      c.body == BuildCharge(p, p.customerCpf.value, p.customerPhone.value, now)
  {
    ChargeCallMade(req, env, auth, charge, now);
  }

  /** When the charge is requested, it is requested with the bearer token and
      the body built from the request. */
  lemma ChargeCallMade(req: Request, env: Env, auth: Fetch<AuthPayload>, charge: Fetch<ChargePayload>, now: nat)
    requires |Serve(req, env, auth, charge, now).calls| == 2
    ensures req.body.Parsed? && auth.Ok?
    ensures req.body.request.customerCpf.Given? && req.body.request.customerPhone.Given?
    ensures Serve(req, env, auth, charge, now).calls[1] ==
      ChargeCall(BearerHeader(auth.payload.accessToken),
        BuildCharge(req.body.request, req.body.request.customerCpf.value, req.body.request.customerPhone.value, now))
  {
    ChargeOnlyAfterAuth(req, env, auth, charge, now);
  }

  /** The reference is the clock's reading: two different instants give two
      different references. */
  lemma ExternalRefDistinct(now1: nat, now2: nat)
    requires now1 != now2
    ensures "club_" + NatToString(now1) != "club_" + NatToString(now2)
  {
    NatToStringRoundTrip(now1);
    NatToStringRoundTrip(now2);
    assert ("club_" + NatToString(now1))[5..] == NatToString(now1);
    assert ("club_" + NatToString(now2))[5..] == NatToString(now2);
  }

  /** A gateway that refuses the token or the charge is reported with a fixed
      message, whatever status it answered with. That the refusal's body
      does not leak either is a consequence of the abstraction, not a
      proved fact: `Fetch.NotOk` keeps only the status, mirroring the fixed
      `throw`s at index.ts:59-61 and 104-107. */
  lemma GatewayRefusalsAreOpaque(req: Request, env: Env, auth: Fetch<AuthPayload>, charge: Fetch<ChargePayload>, now: nat, otherStatus: int)
    requires req.httpMethod != "OPTIONS" && Configured(env) && req.body.Parsed? && !BelowMinimum(req.body.request.amount)
    ensures auth.NotOk? ==>
      Serve(req, env, auth, charge, now).response.body == Some(FailureBody(AuthFailedMessage)) &&
      Serve(req, env, auth, charge, now) == Serve(req, env, NotOk(otherStatus), charge, now)
    ensures auth.Ok? && charge.NotOk? && |Serve(req, env, auth, charge, now).calls| == 2 ==>
      Serve(req, env, auth, charge, now).response.body == Some(FailureBody(ChargeFailedMessage)) &&
      Serve(req, env, auth, charge, now) == Serve(req, env, auth, NotOk(otherStatus), now)
  {
  }

  /** The envelope: status 200 exactly when the charge came back with a body,
      and then the body copies the gateway's code, image, transaction id and
      status; every other answer is a 400 with an `error` message. */
  lemma SuccessIff(req: Request, env: Env, auth: Fetch<AuthPayload>, charge: Fetch<ChargePayload>, now: nat)
    requires req.httpMethod != "OPTIONS"
    ensures var o := Serve(req, env, auth, charge, now);
      o.response.status == 200 <==> |o.calls| == 2 && charge.Ok?
    ensures var o := Serve(req, env, auth, charge, now);
      o.response.status == 200 ==>
        o.response.body == Some(SuccessBody(charge.payload.paymentCode, charge.payload.paymentCodeBase64,
                                            charge.payload.idTransaction, charge.payload.statusTransaction))
    ensures var o := Serve(req, env, auth, charge, now);
      o.response.status == 400 <==> o.response.body.value.FailureBody?
  {
    ChargeOnlyAfterAuth(req, env, auth, charge, now);
  }

  /** The function does not re-check the CPF: a request that reaches the
      gateway with a usable token is charged whatever its CPF and phone hold,
      even no digits at all. */
  lemma CpfNotRevalidated(req: Request, env: Env, auth: Fetch<AuthPayload>, charge: Fetch<ChargePayload>, now: nat, cpf: string, phone: string)
    requires req.httpMethod != "OPTIONS" && Configured(env) && req.body.Parsed? && !BelowMinimum(req.body.request.amount)
    requires auth.Ok?
    ensures var r := req.(body := Parsed(req.body.request.(customerCpf := Given(cpf), customerPhone := Given(phone))));
      |Serve(r, env, auth, charge, now).calls| == 2
  {
    var r := req.(body := Parsed(req.body.request.(customerCpf := Given(cpf), customerPhone := Given(phone))));
    ChargeOnlyAfterAuth(r, env, auth, charge, now);
  }

  /** A body without an amount is not refused: `undefined < 1` is false, and
      the charge is requested with no amount (the key is dropped from the
      JSON). */
  lemma MissingAmountPasses(req: Request, env: Env, auth: Fetch<AuthPayload>, charge: Fetch<ChargePayload>, now: nat)
    requires req.httpMethod != "OPTIONS" && Configured(env) && req.body.Parsed? && req.body.request.amount == Absent
    requires auth.Ok? && req.body.request.customerCpf.Given? && req.body.request.customerPhone.Given?
    ensures var o := Serve(req, env, auth, charge, now);
      |o.calls| == 2 && o.calls[1].body.amount == Absent
  {
    ChargeOnlyAfterAuth(req, env, auth, charge, now);
  }
}

=== FILE: text.dfy ===
/** Character-level helpers shared by the input masks, the charge adapter and
    the admin page: ASCII digit classes (the `\d` / `\D` of a regular
    expression without the `u` flag), digit stripping and the decimal
    rendering of a timestamp. */
module Text {

  /** `\d` in a JavaScript regular expression: the ASCII digits only. */
  predicate IsDigit(c: char) {
    '0' <= c <= '9'
  }

  predicate AllDigits(s: string) {
    forall i :: 0 <= i < |s| ==> IsDigit(s[i])
  }

  predicate NoDigits(s: string) {
    forall i :: 0 <= i < |s| ==> !IsDigit(s[i])
  }

  /** `s.replace(/\D/g, '')`: every non-digit deleted, digits kept in order. */
  function Digits(s: string): (r: string)
    ensures AllDigits(r)
    ensures |r| <= |s|
  {
    if s == [] then []
    else if IsDigit(s[0]) then [s[0]] + Digits(s[1..])
    else Digits(s[1..])
  }

  /** Stripping distributes over concatenation: the digits of `a + b` are the
      digits of `a` followed by the digits of `b`. */
  lemma {:induction false} DigitsAppend(a: string, b: string)
    ensures Digits(a + b) == Digits(a) + Digits(b)
  {
    if a == [] {
      assert a + b == b;
    } else {
      assert (a + b)[1..] == a[1..] + b;
      DigitsAppend(a[1..], b);
    }
  }

  /** A string made only of digits is left as it is by the stripping. */
  lemma {:induction false} DigitsOfDigits(s: string)
    requires AllDigits(s)
    ensures Digits(s) == s
  {
    if s != [] {
      DigitsOfDigits(s[1..]);
    }
  }

  /** A string with no digit strips to the empty string. */
  lemma {:induction false} DigitsOfNoDigits(s: string)
    requires NoDigits(s)
    ensures Digits(s) == []
  {
    if s != [] {
      DigitsOfNoDigits(s[1..]);
    }
  }

  /** The first `k` elements of `s`, or all of `s` when it is shorter. */
  function Take(s: string, k: nat): (r: string)
    ensures |r| == if |s| <= k then |s| else k
    ensures r <= s
  {
    if |s| <= k then s else s[..k]
  }

  function DigitChar(v: nat): (c: char)
    requires v < 10
    ensures IsDigit(c)
  {
    ('0' as int + v) as char
  }

  function DigitValue(c: char): (v: nat)
    requires IsDigit(c)
    ensures v < 10
  {
    c as int - '0' as int
  }

  /** Decimal rendering of a non-negative integer, as a template literal
      renders `Date.now()`: no sign, no leading zero. */
  function NatToString(n: nat): (r: string)
    ensures |r| >= 1 && AllDigits(r)
    ensures n >= 10 ==> r[0] != '0'
  {
    if n < 10 then [DigitChar(n)]
    else NatToString(n / 10) + [DigitChar(n % 10)]
  }

  /** Reads a digit string back as a number; the partner of `NatToString`. */
  function ParseDecimal(s: string): nat
    requires AllDigits(s)
  {
    if s == [] then 0
    else ParseDecimal(s[..|s| - 1]) * 10 + DigitValue(s[|s| - 1])
  }

  /** The rendering loses nothing: reading it back yields the number. */
  lemma {:induction false} NatToStringRoundTrip(n: nat)
    ensures ParseDecimal(NatToString(n)) == n
  {
    var r := NatToString(n);
    if n >= 10 {
      var front := NatToString(n / 10);
      assert r[..|r| - 1] == front;
      NatToStringRoundTrip(n / 10);
    }
  }
}
